=== FILE: README.md ===
# Book club scoring and bookkeeping, modelled in Dafny

This project models the rule-bearing core of a Django book-club application. Members borrow
books stage by stage and earn reading and quiz points. Late returns cost points. Totals and
Saturday-to-Friday weekly buckets make up a score ledger. A member may advance to the next stage
once the number of completed loans of the current stage's books reaches the number of books
in the stage. Completed loans are counted, not distinct books, so repeated loans of one book
also qualify. Around that core sit:

- per-day accounting of login sessions and its display;
- quiz forms and their scoring;
- Persian-to-Latin username generation;
- rank counting;
- due-date reminders and the header notification list;
- a page-count fix-up command and two data migrations.

Layout, one module per source file:

- `Store` (`store.dfy`) holds what every module shares:
  - the entity records (`Period`, `Stage`, `Book`, `Member`, `Assignment`, `WeeklyScore`,
    `Notification`, `Session`);
  - a `Database` class whose fields are the ORM tables. Tables are maps keyed by id, by
    (member, week start) or by (user, day). Notifications and session logs are sequences.
  - time helpers. Timestamps are integer seconds, days are `t / 86400`, and day 0 is a
    Thursday, so Monday is weekday 0 as in Python.
- `Decimal` is the decimal rendering of naturals, with its parsing inverse.
- Operations that write rows are methods with `modifies db`table`. Each is proved against a
  specification function, and the properties are lemmas about those functions. Pure rules
  are functions with contracts. Loops in the source are loops here, with their invariants.

## Model

| member | source | states |
|---|---|---|
| BooksModels.SavedPeriods | books/models.py:24-28 | saving an active period deactivates every other period and stores the row; afterwards no other period is active |
| BooksModels.SavePeriod | books/models.py:24-28 | the period table becomes `SavedPeriods` of the old table |
| BooksModels.SavePreservesSingleActive | books/models.py:24-28 | if at most one period was active before a save, at most one is active after |
| BooksModels.PeriodDatesRejected | books/models.py:30-33 | validation rejects the dates exactly when both are present and start is on or after end (the admin form at books/admin.py:28-36 applies the same rule) |
| BooksModels.BookTotalScore | books/models.py:74-77 | a book's total is its reading score plus its quiz score, so with non-negative scores it is at least either one |
| BooksModels.TotalBooksInStage | books/models.py:117-121 | 0 without a current stage; otherwise the number of books of that stage, never more than the books in the table, and 0 exactly when no book belongs to the stage |
| BooksModels.CompletedBooksCount | books/models.py:107-115 | 0 without a current stage; otherwise the number of the member's completed loans whose book is in the stage, never more than the loans in the table, and 0 exactly when no such loan exists |
| BooksModels.CanAdvance | books/models.py:131-139 | true exactly when there is a current stage and the completed count reaches the stage's book count; never without a stage, always for a stage with no books |
| BooksModels.NoStageNeverAdvances | books/models.py:131-134 | a member without a current stage can never advance |
| BooksModels.EmptyStageAllowsAdvance | books/models.py:131-139 | a stage with no books lets its member advance (0 >= 0) |
| BooksModels.AllBooksCompletedAllowsAdvance | books/models.py:107-139 | a member holding a completed loan for every book of the stage may advance |
| BooksModels.RepeatedLoanCountsTwice | books/models.py:107-139 | the test counts completed loans, not distinct books: k completed loans of one stage book let the member advance from any stage of at most k books |
| BooksModels.ImageNoLarger | books/models.py:107-121 | the set of books covered by a set of loans is no larger than the set of loans |
| BooksModels.FindNextStage | books/models.py:146-149 | returns none iff no stage of the same period has a larger order; otherwise a later stage with the smallest order |
| BooksModels.AdvanceToNextStage | books/models.py:141-155 | advances iff the member may advance and a later stage exists; the member then sits on a next stage, and nothing changes otherwise |
| BooksModels.WithDueDate | books/models.py:178-182 | a present due date is kept; a missing one becomes exactly the assigned date plus `reading_days` times 86400 seconds, so it lies a whole number of days after the assignment |
| BooksModels.SaveAssignment | books/models.py:178-182 | the assignment row is stored with `WithDueDate` applied |
| BooksModels.LatePenalty | books/models.py:184-191 | on time: the book's reading score and `late_days` untouched; late: whole days late stored and `max(0, score - 10 * days)` returned |
| BooksModels.LatePenaltyBounds | books/models.py:184-191 | a late return earns between 0 and the book's reading score |
| BooksModels.CompletedLoan | books/models.py:193-199 | completion sets the return time, quiz score, notes and completed flag; the reading points and `late_days` are exactly those `LatePenalty` gives for a return now against the due date (late days kept from the row when the penalty leaves them unset); reading points lie in 0..book score and are the full score when on time |
| BooksModels.CompleteAssignment | books/models.py:193-208 | the loan row becomes `CompletedLoan`; the member's record becomes its old record with the total grown by exactly the reading + quiz points earned; when the credited member may advance and its period has a later stage, it also moves to a next stage, as `AdvanceToNextStage` states; otherwise nothing else changes; other members are untouched |
| BooksAdmin.CleanLoanForm | books/admin.py:205-237 | a missing assigned date becomes now; with a book, a missing due date becomes assigned + reading days; a book off the member's current stage is flagged iff the member has a stage |
| BooksAdmin.LateDays | books/admin.py:429-435 | 0 unless both dates exist and return is later; then the whole days between them, never negative |
| BooksAdmin.LateDaysAtBoundary | books/admin.py:429-435 | exactly k days late and k days plus 86399 seconds late both count k days |
| BooksAdmin.NormalizeOnSave | books/admin.py:306-328 | unedited fields are derived: completed iff returned; late days from the dates; reading points `max(score - 2 * late, 0)`; a 0 quiz score takes the book's; completed loans take the book's bases and page count, open ones 0 pages; nothing else changes |
| BooksAdmin.NormalizeIdempotent | books/admin.py:303-330 | normalising an already normalised loan changes nothing |
| BooksAdmin.EarnedWithinBookTotal | books/admin.py:311-320 | with nothing edited, earned reading + quiz points lie between 0 and the book's total score |
| BooksAdmin.AdminRuleGentlerThanModelRule | books/admin.py:317-319 | the admin's 2-points-per-day rule never credits less than the model's 10-points-per-day rule for the same return |
| BooksAdmin.SaveModel | books/admin.py:303-330 | the stored row is the normalised loan with a missing due date filled by the model save |
| BooksAdmin.WeekBounds | books/admin.py:467-481 | no reference gives none; otherwise a Saturday on or before the reference day, with the Friday six days later |
| BooksAdmin.WeekStartUnique | books/admin.py:467-481 | any Saturday within six days before the reference day is the week start, so the week is unique |
| BooksAdmin.ClampedTotal | books/admin.py:441 | the new total is `max(total + delta, 0)`: never negative and never below `total + delta` |
| BooksAdmin.CreditThenDebitRestores | books/admin.py:437-442 | crediting then debiting the same amount restores a non-negative total |
| BooksAdmin.DebitBeyondTotalIsForgotten | books/admin.py:437-442 | for every total 0 <= t < d, debiting d then crediting d leaves d, not t: the part of the debit beyond the total is forgotten |
| BooksAdmin.WeeklyAfterDelta | books/admin.py:444-465 | an existing bucket takes `max(score + delta, 0)` and the new week end; a missing one is created only for a positive delta; other buckets are untouched; non-negative buckets stay non-negative |
| BooksAdmin.ApplyScoreDelta | books/admin.py:437-465 | no change without a member or with delta 0; otherwise the clamped total and the weekly table of `WeeklyAfterDelta`; totals stay non-negative |
| BooksAdmin.EditingFreesOwnCopy | books/admin.py:341-357 | availability is never negative, and editing a loan never shows fewer free copies than creating one |
| BooksAdmin.BookAvailability | books/admin.py:347-357 | one entry per book: `max(stock - open loans other than the edited one, 0)` |
| BooksAdmin.Offerable | books/admin.py:376-382 | a book is offered iff it is a stage book, not completed by the member, and has a free copy |
| BooksAdmin.CollectOfferable | books/admin.py:376-382 | the loop's list equals `Offerable`, in stage-book order |
| BooksAdmin.MemberBookLists | books/admin.py:360-396 | the offered list (stage books not among the member's completed loans' books, with a free copy) and the stage list, each plus the edited loan's book when that loan is this member's; membership stated both ways |
| BooksAdmin.CleanNotificationForm | books/admin.py:518-531 | a private notification without a recipient is flagged, and only then; a general one loses its recipient and is unread; others keep both |
| BooksAdmin.NotificationOnSave | books/admin.py:561-567 | general: recipient cleared and unread; private: unread; due reminders untouched |
| BooksAdmin.SaveNotificationModel | books/admin.py:561-567 | appends, or overwrites the edited row with, `NotificationOnSave` of the notification |
| ReadingSessionsModels.HandoutDueDateAsWritten | reading_sessions/models.py:23-27 | the save as written fails exactly when both the due date and the hand-out date are missing; otherwise a present due date is kept and a missing one is exactly the hand-out date plus the reading days in seconds, a whole number of days later |
| ReadingSessionsModels.NewHandoutWithoutDueDateRaises | reading_sessions/models.py:23-27 | a new hand-out (no hand-out date yet) without a due date cannot be saved |
| ReadingSessionsModels.HandoutDueDate | reading_sessions/models.py:23-27 | corrected: a present due date is kept; a missing one is the hand-out date (the moment of the save for a new row) plus the book's reading days; agrees with the code as written wherever that code completes |
| ReadingSessionsModels.FinalReadingScore | reading_sessions/models.py:59-61 | `max(0, score - 10 * late days)` |
| ReadingSessionsModels.QuizScoreValid | reading_sessions/models.py:34-37 | a quiz score passes the min and max validators exactly when it lies in 0..100 |
| ReadingSessionsModels.ReturnAgreesWithLoanPenalty | reading_sessions/models.py:51-61 | the return's late-day count and reading score agree with the loan model's 10-point penalty |
| ReadingSessionsModels.ScoredReturn | reading_sessions/models.py:51-64 | corrected: a new return is dated at the save; late days are the whole days late (0 when on time); the final score is `FinalReadingScore`; total = final + quiz; with a valid quiz score the total lies in 0..reading score + 100 |
| ReadingSessionsModels.RescoringIsStable | reading_sessions/models.py:51-64 | scoring an already scored return again gives the same row |
| ReadingSessionsModels.ScoredReturnAsWritten | reading_sessions/models.py:51-64 | the save as written fails exactly when the return date is missing; otherwise it scores the return as `ScoredReturn` does |
| ReadingSessionsModels.NewReturnRaises | reading_sessions/models.py:51-53 | a new return (no return date yet) cannot be saved |
| ReadingSessionsModels.SaveBookReturnAsWritten | reading_sessions/models.py:51-70 | as written: a new return fails and credits nobody; a stored one is scored and its total added to the member's total |
| ReadingSessionsModels.SaveBookReturn | reading_sessions/models.py:51-70 | corrected: the saved return is `ScoredReturn` dated now when new; the member's total grows by its total score |
| ReadingSessionsModels.SaveTwice | reading_sessions/models.py:68-70 | saving the same return twice adds its total twice |
| ReadingSessionsModels.QuizAttempt.CalculateScore | reading_sessions/models.py:153-158 | positive total points: the score becomes the truncated `score * max / total`; otherwise it stays; the result is the new score, within 0..max for a score within 0..total |
| ReadingSessionsModels.RescaleWithinMax | reading_sessions/models.py:156-157 | rescaling a score in 0..total lands in 0..max |
| QuizForms.FieldName | reading_sessions/forms.py:58 | a field name is `question_` followed by the id's digits |
| QuizForms.FieldNameRoundTrip | reading_sessions/forms.py:58-89 | reading the id back out of `question_<id>` gives the id |
| QuizForms.FieldNamesDistinct | reading_sessions/forms.py:54-80 | distinct questions get distinct field names |
| QuizForms.ChoiceOptions | reading_sessions/forms.py:57 | one option per choice, in order: (rendered id, text) |
| QuizForms.BuildQuizFields | reading_sessions/forms.py:50-80 | no quiz: no fields; otherwise exactly one field per question, named `question_<id>`, whose kind follows the question type, and distinct ids give distinct names |
| QuizForms.EntryPossible | reading_sessions/forms.py:88-92 | an answer adds its question's points to the possible total, and 0 for a missing question |
| QuizForms.EntryEarned | reading_sessions/forms.py:94-111 | earns the full points or 0; multiple choice earns iff the selected choice exists and is correct; true/false and short answers always earn |
| QuizForms.EarnedWithinPossible | reading_sessions/forms.py:84-111 | with positive points, 0 <= earned <= possible |
| QuizForms.MissingQuestionAddsNothing | reading_sessions/forms.py:110-111 | an answer to a missing question changes neither total |
| QuizForms.PercentageBounds | reading_sessions/forms.py:113-115 | the truncated percentage of earned over possible lies in 0..100 |
| QuizForms.CalculateQuizScore | reading_sessions/forms.py:82-115 | the loop's result is the percentage of `Earned` over `Possible` (0 when nothing is possible), within 0..100 for valid points |
| MembersModels.EndTime | members/models.py:46-47 | the logout time when there is one, otherwise now |
| MembersModels.SessionSeconds | members/models.py:46-50 | `max(end - login, 0)`, where the end is the logout time or now |
| MembersModels.UpdateDuration | members/models.py:49-52 | only the duration changes; it becomes the session's length from login to the logout time (or now while open), and 0 when that end precedes the login |
| MembersModels.TotalIsSumOfLengths | members/models.py:64-72 | with stored durations current, closed durations plus open lengths equal the sum of all session lengths |
| MembersModels.TotalDurationForUser | members/models.py:64-72 | the loop returns the closed total plus the open sessions' running lengths |
| MembersModels.FormatParts | members/models.py:75-84 | seconds are shown iff the total is under a minute; hours iff at least 3600; minutes iff the minute part is nonzero; two parts iff both |
| MembersModels.SuffixDistinct | members/models.py:79-84 | an hours part, a minutes part and a seconds part are never equal |
| MembersModels.FormatSeconds | members/models.py:74-85 | under a minute: "<s> seconds"; whole hours only: "<h> hours"; under an hour: "<m> minutes"; hours and minutes: the two parts joined by " و " |
| MembersModels.SecondsDroppedFromMinuteOn | members/models.py:74-85 | from one minute on, the leftover seconds do not change the text |
| MembersModels.Overlap | members/models.py:117-125 | the seconds of an interval inside one day: a whole day when covered, 0 when disjoint |
| MembersModels.OverlapsCoverInterval | members/models.py:112-125 | the per-day pieces from the start's day to the end's day sum to `end - start` |
| MembersModels.CreditDay | members/models.py:127-134 | non-positive seconds change nothing; otherwise the (user, day) row is created or grows by the seconds, and other rows are untouched |
| MembersModels.UpdateOrCreateDuration | members/models.py:127-134 | the usage table becomes `CreditDay` of the old one |
| MembersModels.CreditWholeDays | members/models.py:115-121 | the midnight loop stops on the end's day, having credited each earlier day exactly its overlap |
| MembersModels.AddDuration | members/models.py:107-125 | no change for a missing or empty interval; otherwise each day of the user gains exactly its overlap, rows appear only for days that gain, and other users' rows are untouched |
| MembersSignals.HandleLogin | members/signals.py:8-10 | appends an open session logged in now |
| MembersSignals.FindLatestOpenSession | members/signals.py:18-22 | none iff the user has no open session; otherwise an open session with the latest login |
| MembersSignals.HandleLogout | members/signals.py:13-30 | nothing for an anonymous user or one without an open session; otherwise the latest open session is closed now with its duration, and exactly its interval is credited to daily usage |
| BooksViews.LatinOf | books/views.py:57-64 | table entries are non-empty and hold no space |
| BooksViews.CharImage | books/views.py:68-74 | a character becomes its table entry, itself lowered if alphabetic, a space if a space, and nothing otherwise |
| BooksViews.Collapse | books/views.py:77 | runs of spaces collapse: no two adjacent spaces, the same non-space characters and the same words in order (so each run of spaces between words becomes one space, never none), never longer, and the last character kept |
| BooksViews.CollapseStep | books/views.py:77 | one more character keeps the collapsed text in agreement with the original: no double space, same non-space characters, same words, ends in that character |
| BooksViews.WordsCollapseStep | books/views.py:77 | two texts with the same words and the same last character keep the same words after one more character; a second space adds nothing |
| BooksViews.WordsAppendSpaces | books/views.py:77 | trailing spaces add no word |
| BooksViews.WordsPrependSpaces | books/views.py:77 | leading spaces add no word |
| BooksViews.WordsSlice | books/views.py:77 | cutting only spaces off both ends keeps the words |
| BooksViews.Strip | books/views.py:77 | the result is the slice of the text between its leading and trailing spaces, so only those are cut; no leading or trailing space, the same non-space characters and the same words, and no double space is introduced |
| BooksViews.ConvertToLatin | books/views.py:51-79 | empty or missing text gives ""; otherwise the loop's result is trimmed, has no double space, and keeps exactly the non-space characters and the words, in order, of the transliteration |
| BooksViews.NameParts | books/views.py:14-31 | both Latin parts when neither is empty; otherwise from the Latin full name: a single word gives its first letter and the word, several words the first and last word, no name "user" and "member"; the first part is never empty |
| BooksViews.ComposeUsername | books/views.py:33-40 | the initial, a dot, the last name lowered without spaces, then "313" |
| BooksViews.BaseUsername | books/views.py:11-40 | the base username has that shape; its initial is the lowered first letter of the first-name part, and between the dot and "313" stands the last-name part lowered without spaces |
| BooksViews.Candidate | books/views.py:42-47 | candidate 0 is the base; candidate n > 0 extends the base |
| BooksViews.CandidatesDistinct | books/views.py:42-47 | different counters give different candidates |
| BooksViews.ComputeBaseUsername | books/views.py:11-40 | the computed base equals `BaseUsername` |
| BooksViews.FirstFreeCandidate | books/views.py:42-49 | the result is not taken and is the first free candidate |
| BooksViews.GenerateUsername | books/views.py:11-49 | the username is free, and every earlier candidate of the base is taken |
| BooksViews.OverallRank | books/views.py:516-519 | 1 + active members with a strictly higher total, so at least 1 |
| BooksViews.GroupRank | books/views.py:522-526 | the same count within the member's group |
| BooksViews.GroupRankAtMostOverall | books/views.py:516-526 | the group rank never exceeds the overall rank |
| BooksViews.RankMonotone | books/views.py:516-519 | a higher total never gives a worse rank |
| BooksViews.RankWithinActive | books/views.py:516-519 | an active member's rank is at most the number of active members |
| BooksViews.ViewWeekMatchesLedger | books/views.py:529-531 | the view's week start is the ledger's Saturday week start |
| BooksViews.WeeklyRank | books/views.py:533-545 | 1 + active members' buckets of this week above the member's own score (0 without a bucket) |
| BooksViews.NoBucketRanksBehindPositive | books/views.py:533-545 | a member without a bucket ranks behind any active member with a positive bucket |
| BooksViews.FirstLoanOf | books/views.py:297 | none iff no loan of the book exists; otherwise a loan of that book |
| BooksViews.CompletedRows | books/views.py:296-303 | each row is a stage book whose first loan is completed, scored reading + quiz |
| BooksViews.UncompletedRows | books/views.py:304-308 | each row is a stage book whose first loan is missing or open, with that loan |
| BooksViews.PartitionSizes | books/views.py:296-308 | the two lists together have one row per stage book |
| BooksViews.EveryStageBookListed | books/views.py:296-308 | every stage book is in the completed list iff its first loan is completed, and in the other list otherwise |
| BooksViews.PartitionStageBooks | books/views.py:296-308 | the loop builds exactly `CompletedRows` and `UncompletedRows` |
| BooksViews.PartitionDisjoint | books/views.py:296-308 | no book is in both lists |
| JalaliTags.ReplaceChar | books/templatetags/jalali_tags.py:48 | `str.replace` of one character: same length, that character swapped and the others kept |
| JalaliTags.ToPersianNumber | books/templatetags/jalali_tags.py:37-50 | none gives ""; otherwise same length, each ASCII digit d replaced by Persian digit d, others unchanged |
| JalaliTags.NoAsciiDigitsRemain | books/templatetags/jalali_tags.py:43-50 | no ASCII digit is left in the result |
| JalaliTags.PersianNumberIdempotent | books/templatetags/jalali_tags.py:43-50 | converting twice equals converting once |
| JalaliTags.ToJalali | books/templatetags/jalali_tags.py:9-15 | falsy input gives "", a string is returned unchanged, and only dates reach the calendar conversion |
| ContextProcessors.DueOn | books/context_processors.py:35-42 | the member's incomplete assignments whose due date falls on the day two days from now |
| ContextProcessors.GetOrCreateReminder | books/context_processors.py:45-59 | an existing reminder leaves the table as it was; otherwise one unread reminder is appended; uniqueness is kept |
| ContextProcessors.EnsureDueNotifications | books/context_processors.py:34-59 | old rows are kept; every due assignment ends with a reminder; new rows are reminders for due assignments; at most one per (user, assignment) is kept; when all were covered nothing changes, so a second run adds nothing |
| ContextProcessors.SortNotifications | books/context_processors.py:21-23 | unread first, then newest first, as a permutation of the input |
| ContextProcessors.HeaderList | books/context_processors.py:21-25 | at most five, sorted, as many as are visible up to five, and a prefix of the sorted visible list |
| ContextProcessors.HeaderFromVisible | books/context_processors.py:21-25 | every header entry is a notification addressed to the user or to everyone |
| ContextProcessors.HeaderIsTopFive | books/context_processors.py:21-25 | each header entry sorts before every visible notification left out |
| ContextProcessors.UnreadCount | books/context_processors.py:26 | the count never exceeds the visible notifications |
| ContextProcessors.GeneralNotCounted | books/context_processors.py:26 | a general notification never adds to the unread count |
| ContextProcessors.Notifications | books/context_processors.py:9-31 | anonymous: an empty list and 0, and no writes; a user with an active member gets, for one such member, a reminder row for every assignment due in two days, and every new row is `Reminder(user, id, now)` for one of those; a user without an active member causes no write; the existing rows are kept as a prefix, and the header list and unread count are those of the table after the reminders were added |
| SetStage1Pages.FirstWithTitle | books/management/commands/set_stage1_pages.py:58 | none iff no book has the title; otherwise a book with that title, the first in query order |
| SetStage1Pages.Run | books/management/commands/set_stage1_pages.py:56-66 | only page counts change, titles and ids stay, and the count of updates and missing titles never exceeds the mapping |
| SetStage1Pages.RunNext | books/management/commands/set_stage1_pages.py:57-66 | one entry changes at most the page count of the title's first book, adds at most one update and at most one missing title |
| SetStage1Pages.RunKeepsUnlisted | books/management/commands/set_stage1_pages.py:57-66 | a book that is not the first book of any listed title keeps its row, so missing titles cause no write |
| SetStage1Pages.RunCountsChanges | books/management/commands/set_stage1_pages.py:63-66 | with distinct titles, the update count equals the number of books whose row the run changed |
| SetStage1Pages.MissingTitles | books/management/commands/set_stage1_pages.py:59-61 | every listed missing title has no book |
| SetStage1Pages.RunMissing | books/management/commands/set_stage1_pages.py:59-61 | the command's missing list is exactly the mapping's titles without a book, in mapping order |
| SetStage1Pages.RunSettles | books/management/commands/set_stage1_pages.py:57-66 | afterwards each title's first book holds the mapped page count |
| SetStage1Pages.SettledRunIsQuiet | books/management/commands/set_stage1_pages.py:63-66 | on settled books the command writes nothing and counts 0 updates |
| SetStage1Pages.SecondRunChangesNothing | books/management/commands/set_stage1_pages.py:53-75 | a second run reports 0 updates, changes nothing and lists the same missing titles |
| SetStage1Pages.Report | books/management/commands/set_stage1_pages.py:68-75 | the summary says "No page_count changes applied." iff nothing was updated; the warning line appears iff titles are missing |
| SetStage1Pages.Handle | books/management/commands/set_stage1_pages.py:53-75 | the loop leaves the books, update count and missing list of `Run`, and writes `Report`; books that are not first for a listed title are untouched, and the update count is the number of books changed |
| PopulateAssignmentFields.Populated | books/migrations/0014_populate_assignment_fields.py:6-13 | without a book nothing changes; a zero base takes the book's score; pages fill only for completed loans with nonzero page count and none read; nothing else changes |
| PopulateAssignmentFields.PopulatedIdempotent | books/migrations/0014_populate_assignment_fields.py:9-12 | populating a populated row changes nothing |
| PopulateAssignmentFields.MigrationIdempotent | books/migrations/0014_populate_assignment_fields.py:4-13 | running the migration twice equals running it once |
| PopulateAssignmentFields.PopulateRow | books/migrations/0014_populate_assignment_fields.py:7-12 | the loop body's row equals `Populated` |
| PopulateAssignmentFields.PopulateAssignmentFields | books/migrations/0014_populate_assignment_fields.py:4-13 | the table becomes `Migrated` of the old one |
| PopulatePagesRead.PagesReadFor | books/migrations/0011_bookassignment_pages_read.py:7-10 | a completed loan whose book has a nonzero page count reads all its pages; every other loan reads 0 |
| PopulatePagesRead.Migrated | books/migrations/0011_bookassignment_pages_read.py:6-11 | the same ids, with only `pages_read` changed |
| PopulatePagesRead.MigrationIdempotent | books/migrations/0011_bookassignment_pages_read.py:6-11 | running the migration twice equals running it once |
| PopulatePagesRead.PopulatePagesRead | books/migrations/0011_bookassignment_pages_read.py:4-11 | the table becomes `Migrated` of the old one |
| Decimal.ParseNatToString | books/views.py:46 | rendering a counter in decimal can be parsed back to the same number |
| Decimal.NatToStringInjective | books/views.py:46 | different counters render differently |
| Store.DayOf | books/admin.py:434 | `timedelta.days` of a difference, and the day of a timestamp: the floor of the seconds in days |
| Store.TruncDiv | reading_sessions/models.py:157 | `int()` of a quotient: truncation toward zero, bounded on both sides |

## Left out

- Time zones: every time is one local timeline of integer seconds with 86400-second days.
  `localtime`, `make_aware` and daylight saving are not modelled.
- Jalali calendar conversion (jdatetime) is not modelled. `JalaliTags.ToJalali` returns none
  for dates and datetimes, and the admin's display helpers are left out.
- `JalaliTags.ToPersianNumber` takes the already rendered `str(value)`; how other Python values
  render is not modelled.
- Timestamps set by the database or the clock (`timezone.now()`, `date.today()`,
  `auto_now_add`) are parameters. A row not yet saved holds no `auto_now_add` date; see
  "## Findings".
- `ReadingSessionsModels.QuizAttempt.CalculateScore`: `int(score / total * max)` is computed in
  floating point in the source. The model uses exact truncated division, and float rounding
  can give one less (29 of 50 at max 100 gives 57 in Python, 58 here).
- `QuizForms.CalculateQuizScore`: the same float approximation applies to the percentage.
- `QuizForms.CalculateQuizScore` requires every `question_` field name to be followed by
  digits only. The source would raise an exception on other names.
- `QuizForms.EntryEarned`: a non-numeric choice value is modelled as a missing choice. Django
  raises an error there, but a choice field only admits listed ids.
- `BooksViews.ConvertToLatin`: `isalpha` is approximated as ASCII letters plus the
  Arabic-script letter blocks U+0620–U+064A and U+0671–U+06D3. `lower` lowers ASCII capitals
  only. The only whitespace is the space.
- `BooksViews.GenerateUsername`: the user table is a set of taken names.
- Query orderings that the database leaves open are parameters:
  - the `order` sequence of `SetStage1Pages.Handle`;
  - the loan order of `BooksViews.PartitionStageBooks`;
  - the cleaned-data order of `QuizForms.CalculateQuizScore`.
- `ContextProcessors.HeaderList` sorts ties between rows with equal flags and times in an
  order of its own; the database's tie order is not modelled.
- `ContextProcessors.EnsureDueNotifications`: the title and message text of the reminder are
  not modelled. Reminders carry kind, recipient, assignment, read flag and creation time.
- `ContextProcessors.Notifications`: when several active members belong to the user, the one
  chosen stands for `.first()`.
- The literal title→pages table of `set_stage1_pages` is the `mapping` parameter.
- These come from outside the shown model source and are left out:
  - `BookAssignment.normalize_all_returned` (books/admin.py:339);
  - `penalty_amount` and the admin display columns that use it;
  - the `Member.user` account helpers of the views.
- `Member.group`: the `Member` model shown in books/models.py:79-86 has no `group` field, yet
  the views (books/views.py:524, 549) and the admin (books/admin.py:98, 108) read one. The model
  gives each member an integer `group` and treats it as an opaque label that the group rank
  compares for equality only; its choices and display names are not modelled.
- The `previous_instance` read in `BookAssignmentAdmin.save_model` is left out. The shown code
  never uses it, and never calls `_apply_score_delta` from the save.
- `Member.get_stage_progress_percentage` (books/models.py:123-129) rounds a float percentage
  and is left out.
- Form widgets and labels are left out: `BookAssignmentAdminForm.__init__` and the other form
  `Meta` classes.
- Page rendering, redirects, messages and JSON responses of the views are left out.
- The `MemberProfile` creation signals (members/models.py:137-147) are left out. They only
  create and save a profile row.
- `BooksAdmin.SaveModel` requires the loan's book to exist, because the foreign key is not
  nullable.
- `BooksModels.CompleteAssignment` requires the loan's book to exist for the same reason, and
  requires its due date to be set, which `save` guarantees for stored rows.
- `ReadingSessionsModels.SaveBookReturn` and `ReadingSessionsModels.SaveBookReturnAsWritten`
  require the hand-out's due date to be set, which a completed hand-out `save` guarantees.
- `MembersModels.AddDuration`: `UserDailyUsage` rows are unique per (user, date) because the
  usage table is a map keyed by that pair.

## Findings

| source | as written | input that shows it | evidently intended | confidence | as-written member | corrected member |
|---|---|---|---|---|---|---|
| reading_sessions/models.py:23-27 | a missing due date is computed from `handed_out_date`, which `auto_now_add` fills in only during `super().save()`, so a new row adds days to `None` and raises `TypeError` | a new hand-out from the hand-out view (reading_sessions/views.py:21-23), whose form (reading_sessions/forms.py:9) sets only member and notes, so both dates are missing | the due date is the moment of the save plus the book's reading days | high (not executed) | ReadingSessionsModels.NewHandoutWithoutDueDateRaises | ReadingSessionsModels.HandoutDueDate |
| reading_sessions/models.py:51-70 | `returned_date > due_date` is evaluated before `auto_now_add` fills in `returned_date`, so a new return compares `None` with a date, raises `TypeError`, and the member is never credited | a new return from the return view (reading_sessions/views.py:49-51), which never sets the return date | the return is dated at the save, scored, and its total credited to the member | high (not executed) | ReadingSessionsModels.NewReturnRaises | ReadingSessionsModels.SaveBookReturn |

=== FILE: books_admin.dfy ===
/**
 * The admin site's loan rules: the loan form's defaults and stage check, the
 * normalisation `BookAssignmentAdmin.save_model` applies before saving (completion
 * derived from the return date, 2 points off per day late, frozen base scores,
 * pages read), the score ledger with its Saturday-to-Friday weekly buckets, copy
 * availability for the loan form, and the notification form rules.
 */
module BooksAdmin {
  import opened Wrappers
  import opened Store
  import BooksModels

  function Max(a: int, b: int): int
  {
    if a >= b then a else b
  }

  // ------------------------------------------------------ loan form clean

  /** What `BookAssignmentAdminForm.clean` leaves in `cleaned_data`, and whether it flagged the book. */
  datatype CleanedLoan = CleanedLoan(assignedDate: int, dueDate: Option<int>, returnedDate: Option<int>, bookError: bool)

  /**
   * `BookAssignmentAdminForm.clean`: a missing assigned date becomes `now`; with a book
   * chosen, a missing due date becomes the assigned date plus the book's reading days;
   * a book outside the member's current stage is rejected when the member has a stage.
   */
  function CleanLoanForm(member: Option<Member>, book: Option<Book>, assignedDate: Option<int>, dueDate: Option<int>,
                         returnedDate: Option<int>, now: int): (r: CleanedLoan)
    ensures r.assignedDate == assignedDate.GetOr(now) && r.returnedDate == returnedDate
    ensures book.None? ==> r.dueDate == dueDate
    ensures book.Some? && dueDate.Some? ==> r.dueDate == dueDate
    ensures book.Some? && dueDate.None? ==>
              r.dueDate.Some? && DayOf(r.dueDate.value - r.assignedDate) == book.value.readingDays
              && (r.dueDate.value - r.assignedDate) % SECONDS_PER_DAY == 0
    ensures r.bookError <==> book.Some? && member.Some? && member.value.currentStage.Some?
                             && book.value.stage != member.value.currentStage.value
  {
    var start := assignedDate.GetOr(now);
    var due := if book.Some? && dueDate.None? then Some(start + book.value.readingDays * SECONDS_PER_DAY) else dueDate;
    var wrongStage := book.Some? && member.Some? && member.value.currentStage.Some?
                      && book.value.stage != member.value.currentStage.value;
    CleanedLoan(start, due, returnedDate, wrongStage)
  }

  // ------------------------------------------------------------ late days

  /** `_compute_late_days`: whole days between due and return, 0 unless both are set and the return is later. */
  function LateDays(returned: Option<int>, due: Option<int>): (days: int)
    ensures days >= 0
    ensures returned.None? || due.None? || returned.value <= due.value ==> days == 0
    ensures returned.Some? && due.Some? && returned.value > due.value ==>
              days * SECONDS_PER_DAY <= returned.value - due.value < (days + 1) * SECONDS_PER_DAY
  {
    if returned.Some? && due.Some? && returned.value > due.value then
      Max(DayOf(returned.value - due.value), 0)
    else
      0
  }

  /** Less than a full day late costs nothing; each further full day counts once. */
  lemma LateDaysAtBoundary(due: int, k: nat)
    ensures LateDays(Some(due + k * SECONDS_PER_DAY), Some(due)) == k
    ensures LateDays(Some(due + k * SECONDS_PER_DAY + SECONDS_PER_DAY - 1), Some(due)) == k
  {
  }

  // -------------------------------------------------------- save_model

  /** The fields an admin can mark as edited in the form (`form.changed_data`). */
  datatype EditedField = IsCompletedField | QuizScoreEarnedField | LateDaysField | ReadingScoreEarnedField | PagesReadField

  /**
   * `BookAssignmentAdmin.save_model` before the row is written: every field the admin
   * did not edit is derived from the return date, the due date and the book.
   */
  function NormalizeOnSave(obj: Assignment, book: Option<Book>, edited: set<EditedField>): (r: Assignment)
    ensures IsCompletedField !in edited ==> (r.isCompleted <==> obj.returnedDate.Some?)
    ensures IsCompletedField in edited ==> r.isCompleted == obj.isCompleted
    ensures LateDaysField !in edited ==> r.lateDays == LateDays(obj.returnedDate, obj.dueDate)
    ensures LateDaysField in edited ==> r.lateDays == obj.lateDays
    ensures book.Some? && ReadingScoreEarnedField !in edited ==>
              r.readingScoreEarned >= 0 && r.readingScoreEarned >= book.value.readingScore - 2 * r.lateDays
              && (r.readingScoreEarned == 0 || r.readingScoreEarned == book.value.readingScore - 2 * r.lateDays)
    ensures book.None? || ReadingScoreEarnedField in edited ==> r.readingScoreEarned == obj.readingScoreEarned
    ensures r.quizScoreEarned == if book.Some? && QuizScoreEarnedField !in edited && obj.quizScoreEarned == 0
                                 then book.value.quizScore else obj.quizScoreEarned
    ensures book.Some? && r.isCompleted ==>
              r.readingScoreBase == book.value.readingScore && r.quizScoreBase == book.value.quizScore
              && r.pagesRead == book.value.pageCount
    ensures book.Some? && !r.isCompleted && PagesReadField !in edited ==> r.pagesRead == 0
    ensures book.None? || (!r.isCompleted && PagesReadField in edited) ==> r.pagesRead == obj.pagesRead
    ensures book.None? || !r.isCompleted ==>
              r.readingScoreBase == obj.readingScoreBase && r.quizScoreBase == obj.quizScoreBase
    ensures r == obj.(isCompleted := r.isCompleted, quizScoreEarned := r.quizScoreEarned, lateDays := r.lateDays,
                      readingScoreEarned := r.readingScoreEarned, readingScoreBase := r.readingScoreBase,
                      quizScoreBase := r.quizScoreBase, pagesRead := r.pagesRead)
  {
    var completed := if IsCompletedField in edited then obj.isCompleted else obj.returnedDate.Some?;
    var quiz := if book.Some? && QuizScoreEarnedField !in edited && obj.quizScoreEarned == 0
                then book.value.quizScore else obj.quizScoreEarned;
    var late := if LateDaysField in edited then obj.lateDays else LateDays(obj.returnedDate, obj.dueDate);
    var reading := if book.Some? && ReadingScoreEarnedField !in edited
                   then Max(book.value.readingScore - late * 2, 0) else obj.readingScoreEarned;
    var a := obj.(isCompleted := completed, quizScoreEarned := quiz, lateDays := late, readingScoreEarned := reading);
    if book.None? then a
    else if completed then
      a.(readingScoreBase := book.value.readingScore, quizScoreBase := book.value.quizScore,
         pagesRead := book.value.pageCount)
    else if PagesReadField !in edited then a.(pagesRead := 0)
    else a
  }

  /** Saving an untouched form a second time changes nothing more. */
  lemma NormalizeIdempotent(obj: Assignment, book: Option<Book>)
    ensures NormalizeOnSave(NormalizeOnSave(obj, book, {}), book, {}) == NormalizeOnSave(obj, book, {})
  {
  }

  /**
   * With nothing edited and a quiz score no larger than the book's, a loan never earns
   * more than the book's total score, nor less than nothing.
   */
  lemma EarnedWithinBookTotal(obj: Assignment, book: Book)
    requires book.readingScore >= 0 && book.quizScore >= 0
    requires 0 <= obj.quizScoreEarned <= book.quizScore
    ensures var r := NormalizeOnSave(obj, Some(book), {});
            0 <= r.readingScoreEarned + r.quizScoreEarned <= BooksModels.BookTotalScore(book)
  {
  }

  /**
   * The admin's 2-points-per-day rule never credits less than the model's older
   * 10-points-per-day rule for the same return.
   */
  lemma AdminRuleGentlerThanModelRule(obj: Assignment, book: Book, returned: int)
    requires obj.dueDate.Some? && obj.returnedDate == Some(returned) && book.readingScore >= 0
    ensures NormalizeOnSave(obj, Some(book), {}).readingScoreEarned
            >= BooksModels.LatePenalty(Some(returned), obj.dueDate.value, book.readingScore).readingScore
  {
    var due := obj.dueDate.value;
    if returned > due {
      assert LateDays(obj.returnedDate, obj.dueDate) == DayOf(returned - due);
    }
  }

  /** The admin save: normalise, then `BookAssignment.save` fills a missing due date. */
  method SaveModel(db: Database, obj: Assignment, edited: set<EditedField>)
    requires obj.book in db.books
    modifies db`assignments
    ensures var book := db.books[obj.book];
            db.assignments == old(db.assignments)[obj.id := BooksModels.WithDueDate(NormalizeOnSave(obj, Some(book), edited), book)]
  {
    var book := db.books[obj.book];
    var normalized := NormalizeOnSave(obj, Some(book), edited);
    BooksModels.SaveAssignment(db, normalized);
  }

  // ---------------------------------------------------------- week bounds

  const SATURDAY: int := 5

  /** `_week_bounds`: the Saturday on or before the reference date and the Friday after it. */
  function WeekBounds(reference: Option<int>): (r: Option<(int, int)>)
    ensures r.None? <==> reference.None?
    ensures r.Some? ==> var (start, end) := r.value;
              Weekday(start) == SATURDAY && start <= DayOf(reference.value) <= start + 6 && end == start + 6
  {
    if reference.None? then None
    else
      var day := DayOf(reference.value);
      var start := day - (Weekday(day) + 2) % 7;
      Some((start, start + 6))
  }

  /** Only one Saturday lies within six days before a date, so the week is well defined. */
  lemma WeekStartUnique(reference: int, saturday: int)
    requires Weekday(saturday) == SATURDAY && saturday <= DayOf(reference) <= saturday + 6
    ensures WeekBounds(Some(reference)) == Some((saturday, saturday + 6))
  {
    var start := WeekBounds(Some(reference)).value.0;
    assert (saturday + 3) % 7 == (start + 3) % 7;
    assert (saturday - start) % 7 == 0;
  }

  // ----------------------------------------------------------- score ledger

  /** A member total after a delta: `max(total + delta, 0)`. */
  function ClampedTotal(total: int, delta: int): (r: int)
    ensures r >= 0 && r >= total + delta
    ensures r == 0 || r == total + delta
  {
    Max(total + delta, 0)
  }

  /** Crediting then debiting the same amount restores a non-negative total ... */
  lemma CreditThenDebitRestores(total: int, delta: int)
    requires total >= 0 && delta >= 0
    ensures ClampedTotal(ClampedTotal(total, delta), -delta) == total
  {
  }

  /** ... but a debit the total cannot cover is forgotten, so the reverse order does not. */
  lemma DebitBeyondTotalIsForgotten(total: int, debit: int)
    requires 0 <= total < debit
    ensures ClampedTotal(ClampedTotal(total, -debit), debit) == debit != total
  {
  }

  ghost predicate WeeklyNonNegative(weekly: map<(int, int), WeeklyScore>)
  {
    forall k :: k in weekly ==> weekly[k].score >= 0
  }

  /**
   * The weekly table after `_apply_score_delta`'s bucket step: an existing bucket of the
   * reference week takes `max(score + delta, 0)` and a reset week end; a missing one is
   * created only for a positive delta; every other bucket is untouched.
   */
  function WeeklyAfterDelta(weekly: map<(int, int), WeeklyScore>, member: int, delta: int, reference: Option<int>)
    : (r: map<(int, int), WeeklyScore>)
    ensures reference.None? ==> r == weekly
    ensures reference.Some? ==>
              var (start, end) := WeekBounds(reference).value;
              var key := (member, start);
              && (forall k :: k in weekly && k != key ==> k in r && r[k] == weekly[k])
              && (key in weekly ==> r.Keys == weekly.Keys && r[key] == WeeklyScore(end, ClampedTotal(weekly[key].score, delta)))
              && (key !in weekly && delta > 0 ==> r.Keys == weekly.Keys + {key} && r[key] == WeeklyScore(end, delta))
              && (key !in weekly && delta <= 0 ==> r == weekly)
    ensures WeeklyNonNegative(weekly) ==> WeeklyNonNegative(r)
  {
    if reference.None? then weekly
    else
      var (start, end) := WeekBounds(reference).value;
      var key := (member, start);
      if key in weekly then weekly[key := WeeklyScore(end, ClampedTotal(weekly[key].score, delta))]
      else if delta > 0 then weekly[key := WeeklyScore(end, Max(delta, 0))]
      else weekly
  }

  /** Every member total is non-negative. */
  ghost predicate TotalsNonNegative(members: map<int, Member>)
  {
    forall id :: id in members ==> members[id].totalScore >= 0
  }

  /**
   * `_apply_score_delta`: no effect without a member or with a zero delta; otherwise the
   * member total becomes `max(total + delta, 0)` and the weekly bucket of the reference
   * date is updated.
   */
  method ApplyScoreDelta(db: Database, member: Option<int>, delta: int, reference: Option<int>)
    requires member.Some? ==> member.value in db.members
    modifies db`members, db`weekly
    ensures member.None? || delta == 0 ==> db.members == old(db.members) && db.weekly == old(db.weekly)
    ensures member.Some? && delta != 0 ==>
              var id := member.value;
              && db.members == old(db.members)[id := old(db.members[id]).(totalScore := ClampedTotal(old(db.members[id].totalScore), delta))]
              && db.weekly == WeeklyAfterDelta(old(db.weekly), id, delta, reference)
    ensures old(TotalsNonNegative(db.members)) ==> TotalsNonNegative(db.members)
  {
    if member.None? || delta == 0 {
      return;
    }
    var id := member.value;
    var m := db.members[id];
    db.members := db.members[id := m.(totalScore := ClampedTotal(m.totalScore, delta))];
    if reference.None? {
      return;
    }
    var (start, end) := WeekBounds(reference).value;
    var key := (id, start);
    if key !in db.weekly {
      if delta > 0 {
        db.weekly := db.weekly[key := WeeklyScore(end, Max(delta, 0))];
      }
      return;
    }
    db.weekly := db.weekly[key := WeeklyScore(end, ClampedTotal(db.weekly[key].score, delta))];
  }

  // ------------------------------------------------------- availability

  /** Incomplete loans of `book`, leaving out the loan being edited. */
  function OpenLoans(assignments: map<int, Assignment>, book: int, editing: Option<int>): set<int>
  {
    set id | id in assignments && !assignments[id].isCompleted && assignments[id].book == book
                && (editing.None? || id != editing.value)
  }

  /** `max(stock - open loans, 0)` for one book. */
  function AvailableCopies(assignments: map<int, Assignment>, book: Book, editing: Option<int>): int
  {
    Max(book.stockCount - |OpenLoans(assignments, book.id, editing)|, 0)
  }

  /** Editing a loan never makes fewer copies available than creating a new one. */
  lemma EditingFreesOwnCopy(assignments: map<int, Assignment>, book: Book, editing: int)
    ensures 0 <= AvailableCopies(assignments, book, None) <= AvailableCopies(assignments, book, Some(editing))
  {
    SubsetNoLarger(OpenLoans(assignments, book.id, Some(editing)), OpenLoans(assignments, book.id, None));
  }

  /** The `book_availability` dictionary built by `changeform_view`. */
  method BookAvailability(books: map<int, Book>, assignments: map<int, Assignment>, editing: Option<int>)
    returns (available: map<int, int>)
    ensures available.Keys == books.Keys
    ensures forall id :: id in books ==> available[id] == AvailableCopies(assignments, books[id], editing)
    ensures forall id :: id in available ==> available[id] >= 0
  {
    available := map[];
    var todo := books.Keys;
    while todo != {}
      invariant todo <= books.Keys
      invariant available.Keys == books.Keys - todo
      invariant forall id :: id in available ==> available[id] == AvailableCopies(assignments, books[id], editing)
      decreases todo
    {
      NonEmptyIds(todo);
      var id :| id in todo;
      var open := |OpenLoans(assignments, books[id].id, editing)|;
      available := available[id := Max(books[id].stockCount - open, 0)];
      todo := todo - {id};
    }
  }

  /** Book ids of the member's completed loans (`completed_book_ids`). */
  function CompletedBookIds(assignments: map<int, Assignment>, member: int): set<int>
  {
    set id | id in assignments && assignments[id].member == member && assignments[id].isCompleted :: assignments[id].book
  }

  /** The member's stage books, in order, that are not yet completed and still have a copy. */
  function Offerable(stageBooks: seq<int>, completed: set<int>, available: map<int, int>): (r: seq<int>)
    ensures forall b :: b in r <==> b in stageBooks && b !in completed && b in available && available[b] > 0
    ensures |r| <= |stageBooks|
  {
    if stageBooks == [] then []
    else
      var rest := Offerable(stageBooks[1..], completed, available);
      var b := stageBooks[0];
      if b !in completed && b in available && available[b] > 0 then [b] + rest else rest
  }

  /** The loop of `changeform_view` that collects the books that may be offered. */
  method CollectOfferable(stageBooks: seq<int>, completed: set<int>, available: map<int, int>) returns (ids: seq<int>)
    ensures ids == Offerable(stageBooks, completed, available)
  {
    ids := [];
    var i := 0;
    while i < |stageBooks|
      invariant 0 <= i <= |stageBooks|
      invariant ids + Offerable(stageBooks[i..], completed, available) == Offerable(stageBooks, completed, available)
    {
      var b := stageBooks[i];
      assert stageBooks[i..][1..] == stageBooks[i + 1..];
      if b !in completed && b in available && available[b] > 0 {
        ids := ids + [b];
      }
      i := i + 1;
    }
    assert stageBooks[i..] == [];
  }

  /**
   * The per-member lists `changeform_view` sends to the form: the stage's books, and the
   * books that may be offered; the edited loan's own book is added to both when the
   * loan belongs to this member.
   */
  method MemberBookLists(stageBooks: seq<int>, assignments: map<int, Assignment>, available: map<int, int>,
                         member: int, current: Option<Assignment>)
    returns (stageIds: seq<int>, availableIds: seq<int>)
    ensures var own := current.Some? && current.value.member == member;
            var offerable := Offerable(stageBooks, CompletedBookIds(assignments, member), available);
            && availableIds == offerable + (if own && current.value.book !in offerable then [current.value.book] else [])
            && stageIds == stageBooks + (if own && current.value.book !in stageBooks then [current.value.book] else [])
    ensures forall b :: b in availableIds <==>
              (b in stageBooks && b !in CompletedBookIds(assignments, member) && b in available && available[b] > 0)
              || (current.Some? && current.value.member == member && b == current.value.book)
  {
    var completed := CompletedBookIds(assignments, member);
    availableIds := CollectOfferable(stageBooks, completed, available);
    stageIds := stageBooks;
    if current.Some? && current.value.member == member {
      if current.value.book !in availableIds {
        availableIds := availableIds + [current.value.book];
      }
      if current.value.book !in stageIds {
        stageIds := stageIds + [current.value.book];
      }
    }
  }

  // -------------------------------------------------------- notifications

  /** `NotificationAdminForm.clean`'s result: cleaned recipient and read flag, and whether the recipient was flagged. */
  datatype CleanedNotification = CleanedNotification(recipient: Option<int>, isRead: bool, recipientError: bool)

  /** A private notification needs a recipient; a general one is sent to nobody in particular, unread. */
  function CleanNotificationForm(kind: NotificationKind, recipient: Option<int>, isRead: bool): (r: CleanedNotification)
    ensures r.recipientError <==> kind == Private && recipient.None?
    ensures kind == General ==> r.recipient.None? && !r.isRead
    ensures kind != General ==> r.recipient == recipient && r.isRead == isRead
  {
    var flagged := kind == Private && recipient.None?;
    if kind == General then CleanedNotification(None, false, flagged)
    else CleanedNotification(recipient, isRead, flagged)
  }

  /** `NotificationAdmin.save_model`: general ones lose their recipient, and admin-saved general or private ones are unread. */
  function NotificationOnSave(n: Notification): (r: Notification)
    ensures n.kind == General ==> r == n.(recipient := None, isRead := false)
    ensures n.kind == Private ==> r == n.(isRead := false)
    ensures n.kind == Due ==> r == n
  {
    match n.kind
    case General => n.(recipient := None, isRead := false)
    case Private => n.(isRead := false)
    case Due => n
  }

  /** Writes an admin-saved notification: a new row, or row `change` when editing one. */
  method SaveNotificationModel(db: Database, n: Notification, change: Option<nat>)
    requires change.Some? ==> change.value < |db.notifications|
    modifies db`notifications
    ensures change.None? ==> db.notifications == old(db.notifications) + [NotificationOnSave(n)]
    ensures change.Some? ==> db.notifications == old(db.notifications)[change.value := NotificationOnSave(n)]
  {
    if change.None? {
      db.notifications := db.notifications + [NotificationOnSave(n)];
    } else {
      db.notifications := db.notifications[change.value := NotificationOnSave(n)];
    }
  }
}

=== FILE: books_models.dfy ===
/**
 * The reading-period, stage-progress and loan rules of the books app's models:
 * a single active period, period date validation, per-member stage progress and
 * advancement, the loan's default due date, the 10-points-per-day late penalty
 * and explicit loan completion.
 */
module BooksModels {
  import opened Wrappers
  import opened Store

  // ---------------------------------------------------------------- periods

  /** No two periods are active at once. */
  ghost predicate AtMostOneActive(periods: map<int, Period>)
  {
    forall i, j :: i in periods && j in periods && periods[i].isActive && periods[j].isActive ==> i == j
  }

  /**
   * The period table after `ReadingPeriod.save`: saving an active period first
   * deactivates every other period, then stores the row itself.
   */
  function SavedPeriods(periods: map<int, Period>, p: Period): (r: map<int, Period>)
    ensures r.Keys == periods.Keys + {p.id} && r[p.id] == p
    ensures forall id :: id in periods && id != p.id ==>
              r[id] == if p.isActive then periods[id].(isActive := false) else periods[id]
    ensures p.isActive ==> forall id :: id in r && r[id].isActive ==> id == p.id
  {
    var others := map id | id in periods && id != p.id ::
                    if p.isActive then periods[id].(isActive := false) else periods[id];
    others[p.id := p]
  }

  method SavePeriod(db: Database, p: Period)
    modifies db`periods
    ensures db.periods == SavedPeriods(old(db.periods), p)
  {
    db.periods := SavedPeriods(db.periods, p);
  }

  /** Saving any period keeps the single-active-period rule. */
  lemma SavePreservesSingleActive(periods: map<int, Period>, p: Period)
    requires AtMostOneActive(periods)
    ensures AtMostOneActive(SavedPeriods(periods, p))
  {
    var r := SavedPeriods(periods, p);
    forall i, j | i in r && j in r && r[i].isActive && r[j].isActive
      ensures i == j
    {
      if i != p.id && j != p.id {
        assert periods[i].isActive && periods[j].isActive;
      }
    }
  }

  /** `ReadingPeriod.clean`: true when validation rejects the dates (start on or after end). */
  function PeriodDatesRejected(start: Option<int>, end: Option<int>): (rejected: bool)
    ensures rejected ==> start.Some? && end.Some?
    ensures start.Some? && end.Some? ==> (rejected <==> start.value >= end.value)
  {
    start.Some? && end.Some? && start.value >= end.value
  }

  // ------------------------------------------------------------------ books

  /** `Book.total_score`. */
  function BookTotalScore(b: Book): (t: int)
    ensures t - b.quizScore == b.readingScore
    ensures b.readingScore >= 0 && b.quizScore >= 0 ==> t >= b.readingScore && t >= b.quizScore
  {
    b.readingScore + b.quizScore
  }

  // ------------------------------------------------------- member progress

  function StageBookIds(books: map<int, Book>, stage: int): set<int>
  {
    set id | id in books && books[id].stage == stage
  }

  /** The member's completed loans whose book belongs to `stage`. */
  function CompletedInStage(assignments: map<int, Assignment>, books: map<int, Book>, member: int, stage: int): set<int>
  {
    set id | id in assignments && assignments[id].member == member && assignments[id].isCompleted
                && assignments[id].book in books && books[assignments[id].book].stage == stage
  }

  /** `Member.get_total_books_in_stage`. */
  function TotalBooksInStage(books: map<int, Book>, m: Member): (n: nat)
    ensures n <= |books|
    ensures n == 0 <==> m.currentStage.None? || forall id :: id in books ==> books[id].stage != m.currentStage.value
  {
    if m.currentStage.None? then 0
    else
      CountedIds(StageBookIds(books, m.currentStage.value), books.Keys);
      StageBooksNone(books, m.currentStage.value);
      |StageBookIds(books, m.currentStage.value)|
  }

  /** `Member.get_completed_books_count`. */
  function CompletedBooksCount(assignments: map<int, Assignment>, books: map<int, Book>, m: Member): (n: nat)
    ensures n <= |assignments|
    ensures n == 0 <==>
              (m.currentStage.None? ||
               forall id :: CompletedLoanOf(assignments, books, m.id, id) ==> books[assignments[id].book].stage != m.currentStage.value)
  {
    if m.currentStage.None? then 0
    else
      CountedIds(CompletedInStage(assignments, books, m.id, m.currentStage.value), assignments.Keys);
      CompletedInStageNone(assignments, books, m.id, m.currentStage.value);
      |CompletedInStage(assignments, books, m.id, m.currentStage.value)|
  }

  lemma StageBooksNone(books: map<int, Book>, stage: int)
    ensures (forall id :: id !in StageBookIds(books, stage)) <==> forall id :: id in books ==> books[id].stage != stage
  {
    if exists id :: id in books && books[id].stage == stage {
      var id :| id in books && books[id].stage == stage;
      assert id in StageBookIds(books, stage);
    }
  }

  /** A completed loan of the member whose book is in the table. */
  predicate CompletedLoanOf(assignments: map<int, Assignment>, books: map<int, Book>, member: int, id: int)
  {
    id in assignments && assignments[id].member == member && assignments[id].isCompleted && assignments[id].book in books
  }

  lemma CompletedInStageNone(assignments: map<int, Assignment>, books: map<int, Book>, member: int, stage: int)
    ensures (forall id :: id !in CompletedInStage(assignments, books, member, stage)) <==>
            forall id :: CompletedLoanOf(assignments, books, member, id) ==> books[assignments[id].book].stage != stage
  {
    if exists id :: CompletedLoanOf(assignments, books, member, id) && books[assignments[id].book].stage == stage {
      var id :| CompletedLoanOf(assignments, books, member, id) && books[assignments[id].book].stage == stage;
      assert id in CompletedInStage(assignments, books, member, stage);
    }
  }

  /** A count of ids drawn from a table is at most the table's size, and 0 exactly when none was drawn. */
  lemma CountedIds(ids: set<int>, keys: set<int>)
    requires ids <= keys
    ensures |ids| <= |keys|
    ensures |ids| == 0 <==> forall id :: id !in ids
  {
    SubsetNoLarger(ids, keys);
    if ids != {} {
      NonEmptyIds(ids);
    }
  }

  /** `Member.can_advance_to_next_stage`. */
  function CanAdvance(assignments: map<int, Assignment>, books: map<int, Book>, m: Member): (ok: bool)
    ensures ok ==> m.currentStage.Some?
    ensures m.currentStage.Some? && TotalBooksInStage(books, m) == 0 ==> ok
    ensures ok <==> m.currentStage.Some? && CompletedBooksCount(assignments, books, m) >= TotalBooksInStage(books, m)
  {
    m.currentStage.Some? && CompletedBooksCount(assignments, books, m) >= TotalBooksInStage(books, m)
  }

  /** Without a current stage a member never advances. */
  lemma NoStageNeverAdvances(assignments: map<int, Assignment>, books: map<int, Book>, m: Member)
    requires m.currentStage.None?
    ensures !CanAdvance(assignments, books, m)
  {
  }

  /** A stage that holds no books lets its members advance at once. */
  lemma EmptyStageAllowsAdvance(assignments: map<int, Assignment>, books: map<int, Book>, m: Member)
    requires m.currentStage.Some?
    requires forall id :: id in books ==> books[id].stage != m.currentStage.value
    ensures CanAdvance(assignments, books, m)
  {
    var ids := StageBookIds(books, m.currentStage.value);
    assert forall id :: id !in ids;
    assert ids == {};
  }

  /** The image of a finite set is no larger than the set. */
  lemma {:induction false} ImageNoLarger(s: set<int>, f: int -> int)
    ensures |set x | x in s :: f(x)| <= |s|
    decreases |s|
  {
    if s != {} {
      NonEmptyIds(s);
      var x :| x in s;
      ImageNoLarger(s - {x}, f);
      var rest := set y | y in s - {x} :: f(y);
      assert (set y | y in s :: f(y)) <= rest + {f(x)};
      SubsetNoLarger(set y | y in s :: f(y), rest + {f(x)});
    }
  }

  /** A member who has a completed loan for every book of the current stage may advance. */
  lemma AllBooksCompletedAllowsAdvance(assignments: map<int, Assignment>, books: map<int, Book>, m: Member)
    requires m.currentStage.Some?
    requires forall b :: b in StageBookIds(books, m.currentStage.value) ==>
               exists a :: a in assignments && assignments[a].book == b && assignments[a].member == m.id
                           && assignments[a].isCompleted
    ensures CanAdvance(assignments, books, m)
  {
    var stage := m.currentStage.value;
    var done := CompletedInStage(assignments, books, m.id, stage);
    var bookOf := (a: int) => if a in assignments then assignments[a].book else 0;
    ImageNoLarger(done, bookOf);
    forall b | b in StageBookIds(books, stage)
      ensures b in (set a | a in done :: bookOf(a))
    {
      var a :| a in assignments && assignments[a].book == b && assignments[a].member == m.id
               && assignments[a].isCompleted;
      assert a in done;
    }
    SubsetNoLarger(StageBookIds(books, stage), set a | a in done :: bookOf(a));
  }

  /**
   * The count compares completed loans, not distinct books: `k` completed loans of one
   * stage book let the member advance from any stage of at most `k` books, though the
   * other books of the stage were never read.
   */
  lemma RepeatedLoanCountsTwice(assignments: map<int, Assignment>, books: map<int, Book>, m: Member,
                                loans: set<int>, book: int)
    requires m.currentStage.Some? && book in books && books[book].stage == m.currentStage.value
    requires forall id :: id in loans ==> id in assignments && assignments[id].member == m.id
                                          && assignments[id].isCompleted && assignments[id].book == book
    requires |StageBookIds(books, m.currentStage.value)| <= |loans|
    ensures CanAdvance(assignments, books, m)
  {
    var done := CompletedInStage(assignments, books, m.id, m.currentStage.value);
    forall id | id in loans
      ensures id in done
    {
      assert assignments[id].book in books && books[assignments[id].book].stage == m.currentStage.value;
    }
    SubsetNoLarger(loans, done);
  }

  // ------------------------------------------------------ stage progression

  /** Stage `id` comes after `cur` in the same period. */
  predicate IsLater(stages: map<int, Stage>, cur: Stage, id: int)
  {
    id in stages && stages[id].period == cur.period && stages[id].order > cur.order
  }

  /** Stage `id` is a later stage of `cur`'s period with the smallest order. */
  ghost predicate IsNextStage(stages: map<int, Stage>, cur: Stage, id: int)
  {
    IsLater(stages, cur, id) && forall other :: IsLater(stages, cur, other) ==> stages[id].order <= stages[other].order
  }

  /** The query `Stage.objects.filter(period=..., order__gt=...).order_by('order').first()`. */
  method FindNextStage(stages: map<int, Stage>, cur: Stage) returns (next: Option<int>)
    ensures next.None? <==> forall id :: !IsLater(stages, cur, id)
    ensures next.Some? ==> IsNextStage(stages, cur, next.value)
  {
    next := None;
    var todo := stages.Keys;
    while todo != {}
      invariant todo <= stages.Keys
      invariant next.None? ==> forall id :: id in stages && id !in todo ==> !IsLater(stages, cur, id)
      invariant next.Some? ==> IsLater(stages, cur, next.value)
      invariant next.Some? ==> forall id :: id in stages && id !in todo && IsLater(stages, cur, id) ==>
                                  stages[next.value].order <= stages[id].order
      decreases todo
    {
      NonEmptyIds(todo);
      var id :| id in todo;
      if IsLater(stages, cur, id) && (next.None? || stages[id].order < stages[next.value].order) {
        next := Some(id);
      }
      todo := todo - {id};
    }
  }

  /** Every member's current stage, when set, is a row of the stage table. */
  ghost predicate StageLinksResolve(db: Database)
    reads db
  {
    forall id :: id in db.members && db.members[id].currentStage.Some? ==>
      db.members[id].currentStage.value in db.stages
  }

  /**
   * `Member.advance_to_next_stage`: when the member may advance and its period has a
   * later stage, the member moves to a later stage with the smallest order.
   */
  method AdvanceToNextStage(db: Database, memberId: int) returns (advanced: bool)
    requires memberId in db.members && StageLinksResolve(db)
    modifies db`members
    ensures StageLinksResolve(db)
    ensures var m := old(db.members[memberId]);
            advanced <==> CanAdvance(db.assignments, db.books, m)
                          && exists id :: IsLater(db.stages, db.stages[m.currentStage.value], id)
    ensures !advanced ==> db.members == old(db.members)
    ensures advanced ==> var m := old(db.members[memberId]);
              exists id :: IsNextStage(db.stages, db.stages[m.currentStage.value], id)
                           && db.members == old(db.members)[memberId := m.(currentStage := Some(id))]
  {
    var m := db.members[memberId];
    if !CanAdvance(db.assignments, db.books, m) {
      return false;
    }
    var cur := db.stages[m.currentStage.value];
    var next := FindNextStage(db.stages, cur);
    if next.None? {
      return false;
    }
    assert IsLater(db.stages, cur, next.value);
    db.members := db.members[memberId := m.(currentStage := next)];
    assert IsLater(db.stages, db.stages[m.currentStage.value], next.value);
    return true;
  }

  // ------------------------------------------------------------------ loans

  /** `BookAssignment.save`: a missing due date becomes the assigned date plus the book's reading days. */
  function WithDueDate(a: Assignment, book: Book): (r: Assignment)
    ensures r.dueDate.Some?
    ensures a.dueDate.Some? ==> r == a
    ensures a.dueDate.None? ==> r == a.(dueDate := r.dueDate)
                                && DayOf(r.dueDate.value - a.assignedDate) == book.readingDays
                                && (r.dueDate.value - a.assignedDate) % SECONDS_PER_DAY == 0
  {
    if a.dueDate.Some? then a else a.(dueDate := Some(a.assignedDate + book.readingDays * SECONDS_PER_DAY))
  }

  method SaveAssignment(db: Database, a: Assignment)
    requires a.dueDate.Some? || a.book in db.books
    modifies db`assignments
    ensures a.dueDate.Some? ==> db.assignments == old(db.assignments)[a.id := a]
    ensures a.dueDate.None? ==> db.assignments == old(db.assignments)[a.id := WithDueDate(a, db.books[a.book])]
  {
    if a.dueDate.Some? {
      db.assignments := db.assignments[a.id := a];
    } else {
      db.assignments := db.assignments[a.id := WithDueDate(a, db.books[a.book])];
    }
  }

  /** What `calculate_late_penalty` returns, and the `late_days` it stores (`None`: left as it was). */
  datatype PenaltyOutcome = PenaltyOutcome(readingScore: int, lateDays: Option<int>)

  /** `BookAssignment.calculate_late_penalty`: 10 points off the reading score per whole day late. */
  function LatePenalty(returned: Option<int>, due: int, readingScore: int): (r: PenaltyOutcome)
    ensures returned.None? || returned.value <= due ==> r == PenaltyOutcome(readingScore, None)
    ensures returned.Some? && returned.value > due ==>
              r.lateDays.Some? && r.lateDays.value >= 0
              && r.lateDays.value * SECONDS_PER_DAY <= returned.value - due < (r.lateDays.value + 1) * SECONDS_PER_DAY
              && r.readingScore == if readingScore - 10 * r.lateDays.value > 0 then readingScore - 10 * r.lateDays.value else 0
  {
    if returned.Some? && returned.value > due then
      var days := DayOf(returned.value - due);
      PenaltyOutcome(if 0 > readingScore - days * 10 then 0 else readingScore - days * 10, Some(days))
    else
      PenaltyOutcome(readingScore, None)
  }

  /** A late return never earns more reading points than the book offers, nor fewer than zero. */
  lemma LatePenaltyBounds(returned: int, due: int, readingScore: int)
    requires returned > due && readingScore >= 0
    ensures 0 <= LatePenalty(Some(returned), due, readingScore).readingScore <= readingScore
  {
  }

  /** `complete_assignment`'s changes to the loan row, before the save fills in a missing due date. */
  function CompletedLoan(a: Assignment, book: Book, quizScore: int, notes: string, now: int): (r: Assignment)
    requires a.dueDate.Some?
    ensures r.isCompleted && r.returnedDate == Some(now) && r.quizScoreEarned == quizScore && r.notes == notes
    ensures r == a.(returnedDate := r.returnedDate, quizScoreEarned := quizScore, readingScoreEarned := r.readingScoreEarned,
                    isCompleted := true, lateDays := r.lateDays, notes := notes)
    ensures book.readingScore >= 0 ==> 0 <= r.readingScoreEarned <= book.readingScore
    ensures now <= a.dueDate.value ==> r.readingScoreEarned == book.readingScore && r.lateDays == a.lateDays
    ensures var penalty := LatePenalty(Some(now), a.dueDate.value, book.readingScore);
            r.readingScoreEarned == penalty.readingScore && r.lateDays == penalty.lateDays.GetOr(a.lateDays)
  {
    var outcome := LatePenalty(Some(now), a.dueDate.value, book.readingScore);
    a.(returnedDate := Some(now), quizScoreEarned := quizScore, readingScoreEarned := outcome.readingScore,
       isCompleted := true, lateDays := outcome.lateDays.GetOr(a.lateDays), notes := notes)
  }

  /**
   * `BookAssignment.complete_assignment`: closes the loan at `now`, credits the member
   * with exactly the loan's earned reading and quiz points (no clamp), then advances
   * the member when the stage is complete.
   */
  method CompleteAssignment(db: Database, id: int, quizScore: int, notes: string, now: int)
    requires id in db.assignments && db.assignments[id].id == id && db.assignments[id].dueDate.Some?
    requires db.assignments[id].book in db.books && db.assignments[id].member in db.members
    requires StageLinksResolve(db)
    modifies db`assignments, db`members
    ensures var a := old(db.assignments[id]);
            db.assignments == old(db.assignments)[id := CompletedLoan(a, old(db.books[a.book]), quizScore, notes, now)]
    ensures var a := db.assignments[id];
            var m := old(db.members[a.member]);
            a.member in db.members && db.members[a.member].totalScore == m.totalScore + a.readingScoreEarned + a.quizScoreEarned
    ensures var a := db.assignments[id];
            var m := old(db.members[a.member]);
            var credited := m.(totalScore := m.totalScore + a.readingScoreEarned + a.quizScoreEarned);
            var advances := CanAdvance(db.assignments, db.books, credited)
                            && exists s :: IsLater(db.stages, db.stages[m.currentStage.value], s);
            && (advances ==> exists s :: IsNextStage(db.stages, db.stages[m.currentStage.value], s)
                                         && db.members[a.member] == credited.(currentStage := Some(s)))
            && (!advances ==> db.members[a.member] == credited)
    ensures var memberId := db.assignments[id].member;
            forall other :: other in old(db.members) && other != memberId ==> other in db.members && db.members[other] == old(db.members[other])
    ensures StageLinksResolve(db)
  {
    var a := db.assignments[id];
    var done := CompletedLoan(a, db.books[a.book], quizScore, notes, now);
    SaveAssignment(db, done);
    var m := db.members[a.member];
    var credited := m.(totalScore := m.totalScore + done.readingScoreEarned + done.quizScoreEarned);
    db.members := db.members[a.member := credited];
    if CanAdvance(db.assignments, db.books, credited) {
      var _ := AdvanceToNextStage(db, a.member);
    }
  }
}

=== FILE: books_views.dfy ===
/**
 * The logic inside the books views: Persian-to-Latin transliteration, username
 * generation with a collision counter, rank counting, and the completed/uncompleted
 * partition of a stage's books.
 */
module BooksViews {
  import opened Wrappers
  import opened Decimal
  import opened Store
  import BooksAdmin

  // ------------------------------------------------------------ transliteration

  /** The transliteration table of `convert_to_latin`. */
  function LatinOf(c: char): (r: Option<string>)
    ensures r.Some? ==> |r.value| >= 1 && ' ' !in r.value
  {
    match c
    case '\U{0627}' => Some("a")  case '\U{0622}' => Some("a")  case '\U{0628}' => Some("b")
    case '\U{067E}' => Some("p")  case '\U{062A}' => Some("t")  case '\U{062B}' => Some("s")
    case '\U{062C}' => Some("j")  case '\U{0686}' => Some("ch") case '\U{062D}' => Some("h")
    case '\U{062E}' => Some("kh") case '\U{062F}' => Some("d")  case '\U{0630}' => Some("z")
    case '\U{0631}' => Some("r")  case '\U{0632}' => Some("z")  case '\U{0698}' => Some("zh")
    case '\U{0633}' => Some("s")  case '\U{0634}' => Some("sh") case '\U{0635}' => Some("s")
    case '\U{0636}' => Some("z")  case '\U{0637}' => Some("t")  case '\U{0638}' => Some("z")
    case '\U{0639}' => Some("a")  case '\U{063A}' => Some("gh") case '\U{0641}' => Some("f")
    case '\U{0642}' => Some("gh") case '\U{06A9}' => Some("k")  case '\U{06AF}' => Some("g")
    case '\U{0644}' => Some("l")  case '\U{0645}' => Some("m")  case '\U{0646}' => Some("n")
    case '\U{0648}' => Some("v")  case '\U{0647}' => Some("h")  case '\U{06CC}' => Some("i")
    case '\U{0626}' => Some("e")  case '\U{0621}' => Some("e")  case '\U{0624}' => Some("o")
    case '\U{0623}' => Some("a")  case '\U{0625}' => Some("e")  case '\U{0629}' => Some("h")
    case '\U{06F0}' => Some("0")  case '\U{06F1}' => Some("1")  case '\U{06F2}' => Some("2")
    case '\U{06F3}' => Some("3")  case '\U{06F4}' => Some("4")  case '\U{06F5}' => Some("5")
    case '\U{06F6}' => Some("6")  case '\U{06F7}' => Some("7")  case '\U{06F8}' => Some("8")
    case '\U{06F9}' => Some("9")
    case _ => None
  }

  /** `str.isalpha` on one character, over ASCII and the Arabic-script letter blocks. */
  predicate IsAlpha(c: char)
  {
    ('a' <= c <= 'z') || ('A' <= c <= 'Z') || ('\U{0620}' <= c <= '\U{064A}') || ('\U{0671}' <= c <= '\U{06D3}')
  }

  /** `str.lower` on one character: only ASCII capitals have a lower case here. */
  function Lower(c: char): (l: char)
    ensures IsAlpha(c) ==> IsAlpha(l)
    ensures l == ' ' <==> c == ' '
    ensures !('A' <= l <= 'Z')
  {
    if 'A' <= c <= 'Z' then (c as int + 32) as char else c
  }

  /** What one input character contributes: its table entry, itself lowered, a space, or nothing. */
  function CharImage(c: char): (r: string)
    ensures c == ' ' <==> r == " "
    ensures c != ' ' ==> ' ' !in r
  {
    match LatinOf(c)
    case Some(latin) => latin
    case None => if IsAlpha(c) then [Lower(c)] else if c == ' ' then " " else ""
  }

  /** The loop of `convert_to_latin`, before spaces are normalised. */
  function Transliterate(s: string): string
  {
    if s == [] then [] else Transliterate(s[..|s| - 1]) + CharImage(s[|s| - 1])
  }

  /** `s` without its spaces. */
  function Unspaced(s: string): (r: string)
    ensures ' ' !in r
  {
    if s == [] then [] else Unspaced(s[..|s| - 1]) + (if s[|s| - 1] == ' ' then [] else [s[|s| - 1]])
  }

  lemma {:induction false} UnspacedAppend(a: string, b: string)
    ensures Unspaced(a + b) == Unspaced(a) + Unspaced(b)
    decreases |b|
  {
    if b != [] {
      var init := b[..|b| - 1];
      var tail := if b[|b| - 1] == ' ' then [] else [b[|b| - 1]];
      assert (a + b)[..|a + b| - 1] == a + init;
      assert Unspaced(a + b) == Unspaced(a + init) + tail;
      UnspacedAppend(a, init);
      assert Unspaced(b) == Unspaced(init) + tail;
    } else {
      assert a + b == a;
    }
  }

  predicate NoDoubleSpace(s: string)
  {
    forall i :: 0 <= i < |s| - 1 ==> !(s[i] == ' ' && s[i + 1] == ' ')
  }

  predicate Trimmed(s: string)
  {
    s == [] || (s[0] != ' ' && s[|s| - 1] != ' ')
  }

  /** The words of `s`: its maximal runs of non-space characters, in order. */
  function Words(s: string): seq<string>
  {
    if s == [] then [] else WordsStep(Words(s[..|s| - 1]), InWord(s[..|s| - 1]), s[|s| - 1])
  }

  /** The text ends inside a word. */
  predicate InWord(s: string)
  {
    s != [] && s[|s| - 1] != ' '
  }

  /** The words after character `c` follows text with words `ws`: a space ends a word, another character extends or starts one. */
  function WordsStep(ws: seq<string>, inWord: bool, c: char): seq<string>
  {
    if c == ' ' then ws
    else if inWord && ws != [] then ws[..|ws| - 1] + [ws[|ws| - 1] + [c]]
    else ws + [[c]]
  }

  lemma WordsSnoc(s: string, c: char)
    ensures Words(s + [c]) == WordsStep(Words(s), InWord(s), c)
  {
    assert (s + [c])[..|s|] == s;
  }

  /** A text made of spaces only has no words. */
  lemma {:induction false} WordsOfSpaces(s: string)
    requires forall i :: 0 <= i < |s| ==> s[i] == ' '
    ensures Words(s) == []
  {
    if s != [] {
      WordsOfSpaces(s[..|s| - 1]);
    }
  }

  /** Spaces added at the end add no word. */
  lemma {:induction false} WordsAppendSpaces(s: string, q: string)
    requires forall i :: 0 <= i < |q| ==> q[i] == ' '
    ensures Words(s + q) == Words(s)
    decreases |q|
  {
    if q == [] {
      assert s + q == s;
    } else {
      var init := q[..|q| - 1];
      assert s + q == (s + init) + [' '];
      WordsSnoc(s + init, ' ');
      WordsAppendSpaces(s, init);
    }
  }

  /** Spaces added at the front add no word. */
  lemma {:induction false} WordsPrependSpaces(p: string, s: string)
    requires forall i :: 0 <= i < |p| ==> p[i] == ' '
    ensures Words(p + s) == Words(s)
    decreases |s|
  {
    if s == [] {
      assert p + s == p;
      WordsOfSpaces(p);
    } else {
      var init := s[..|s| - 1];
      var c := s[|s| - 1];
      assert s == init + [c] && p + s == (p + init) + [c];
      WordsSnoc(p + init, c);
      WordsSnoc(init, c);
      WordsPrependSpaces(p, init);
      assert InWord(p + init) == InWord(init) by {
        if init != [] {
          assert (p + init)[|p + init| - 1] == init[|init| - 1];
        }
      }
    }
  }

  /** `re.sub(r'\s+', ' ', s)` on text whose only whitespace is the space. */
  function Collapse(s: string): (r: string)
    ensures NoDoubleSpace(r)
    ensures Unspaced(r) == Unspaced(s)
    ensures Words(r) == Words(s)
    ensures |r| <= |s|
    ensures s != [] ==> r != [] && r[|r| - 1] == s[|s| - 1]
  {
    if s == [] then []
    else
      var prev := s[..|s| - 1];
      var c := s[|s| - 1];
      assert s == prev + [c];
      var init := Collapse(prev);
      CollapseStep(prev, init, c);
      CollapseNext(init, c)
  }

  /** One character of `Collapse`: a space after a space is dropped. */
  function CollapseNext(init: string, c: char): string
  {
    if c == ' ' && |init| > 0 && init[|init| - 1] == ' ' then init else init + [c]
  }

  /** A collapsed text that agrees with `prev` stays in agreement when both take a character. */
  lemma CollapseStep(prev: string, init: string, c: char)
    requires NoDoubleSpace(init) && Unspaced(init) == Unspaced(prev) && Words(init) == Words(prev) && |init| <= |prev|
    requires prev == [] <==> init == []
    requires prev != [] ==> init[|init| - 1] == prev[|prev| - 1]
    ensures var r := CollapseNext(init, c);
            && NoDoubleSpace(r) && Unspaced(r) == Unspaced(prev + [c]) && Words(r) == Words(prev + [c])
            && |r| <= |prev| + 1 && r != [] && r[|r| - 1] == c
  {
    CollapseNextNoDoubleSpace(init, c);
    UnspacedCollapseNext(prev, init, c);
    WordsCollapseStep(prev, init, c);
    CollapseNextEnds(init, c);
  }

  /** `CollapseNext` grows the text by at most one character and leaves it ending in `c`. */
  lemma CollapseNextEnds(init: string, c: char)
    ensures var r := CollapseNext(init, c); |r| <= |init| + 1 && r != [] && r[|r| - 1] == c
  {
  }

  /** `CollapseNext` never creates two adjacent spaces. */
  lemma CollapseNextNoDoubleSpace(init: string, c: char)
    requires NoDoubleSpace(init)
    ensures NoDoubleSpace(CollapseNext(init, c))
  {
    var r := CollapseNext(init, c);
    if r == init + [c] {
      forall i | 0 <= i < |r| - 1 ensures !(r[i] == ' ' && r[i + 1] == ' ') {
        if i < |init| - 1 {
          assert r[i] == init[i] && r[i + 1] == init[i + 1];
        }
      }
    }
  }

  /** `CollapseNext` drops only spaces. */
  lemma UnspacedCollapseNext(prev: string, init: string, c: char)
    requires Unspaced(init) == Unspaced(prev)
    ensures Unspaced(CollapseNext(init, c)) == Unspaced(prev + [c])
  {
    UnspacedAppend(init, [c]);
    UnspacedAppend(prev, [c]);
    assert Unspaced([c]) == Unspaced([c][..0]) + (if c == ' ' then [] else [c]);
  }

  /** One step of `Collapse`: a text that ends like `prev` and has its words keeps them when a character is added. */
  lemma WordsCollapseStep(prev: string, init: string, c: char)
    requires Words(init) == Words(prev)
    requires prev == [] <==> init == []
    requires prev != [] ==> init[|init| - 1] == prev[|prev| - 1]
    ensures Words(init + [c]) == Words(prev + [c])
    ensures c == ' ' && init != [] && init[|init| - 1] == ' ' ==> Words(init) == Words(prev + [c])
  {
    WordsSnoc(init, c);
    WordsSnoc(prev, c);
    assert InWord(init) == InWord(prev);
  }

  /** A text made of spaces only has no non-space characters. */
  lemma {:induction false} UnspacedOfSpaces(s: string)
    requires forall i :: 0 <= i < |s| ==> s[i] == ' '
    ensures Unspaced(s) == []
  {
    if s != [] {
      UnspacedOfSpaces(s[..|s| - 1]);
    }
  }

  /** The number of leading spaces. */
  function LeadingSpaces(s: string): (n: nat)
    ensures n <= |s| && (forall i :: 0 <= i < n ==> s[i] == ' ') && (n < |s| ==> s[n] != ' ')
  {
    if s != [] && s[0] == ' ' then 1 + LeadingSpaces(s[1..]) else 0
  }

  /** The number of trailing spaces. */
  function TrailingSpaces(s: string): (n: nat)
    ensures n <= |s| && (forall i :: |s| - n <= i < |s| ==> s[i] == ' ') && (n < |s| ==> s[|s| - n - 1] != ' ')
  {
    if s != [] && s[|s| - 1] == ' ' then 1 + TrailingSpaces(s[..|s| - 1]) else 0
  }

  lemma UnspacedOfSpacePrefix(s: string, lo: int)
    requires 0 <= lo <= |s| && forall i :: 0 <= i < lo ==> s[i] == ' '
    ensures Unspaced(s[..lo]) == []
  {
    UnspacedOfSpaces(s[..lo]);
  }

  lemma UnspacedOfSpaceSuffix(s: string, hi: int)
    requires 0 <= hi <= |s| && forall i :: hi <= i < |s| ==> s[i] == ' '
    ensures Unspaced(s[hi..]) == []
  {
    UnspacedOfSpaces(s[hi..]);
  }

  /** Cutting spaces off both ends keeps the non-space characters. */
  lemma UnspacedSlice(s: string, lo: int, hi: int)
    requires 0 <= lo <= hi <= |s|
    requires forall i :: 0 <= i < lo ==> s[i] == ' '
    requires forall i :: hi <= i < |s| ==> s[i] == ' '
    ensures Unspaced(s[lo..hi]) == Unspaced(s)
  {
    UnspacedOfSpacePrefix(s, lo);
    UnspacedOfSpaceSuffix(s, hi);
    JoinThree(s[..lo], s[lo..hi], s[hi..]);
    SplitThree(s, lo, hi);
  }

  lemma SplitThree(s: string, lo: int, hi: int)
    requires 0 <= lo <= hi <= |s|
    ensures s[..lo] + s[lo..hi] + s[hi..] == s
  {
    assert s[..lo] + s[lo..hi] == s[..hi];
  }

  /** Unspacing three joined pieces. */
  lemma JoinThree(front: string, mid: string, back: string)
    requires Unspaced(front) == [] && Unspaced(back) == []
    ensures Unspaced(front + mid + back) == Unspaced(mid)
  {
    UnspacedAppend(front, mid);
    UnspacedAppend(front + mid, back);
  }

  /** Where `str.strip` cuts: every character outside the bounds is a space, the first and last inside are not. */
  function StripBounds(s: string): (b: (nat, nat))
    ensures b.0 <= b.1 <= |s|
    ensures forall i :: 0 <= i < b.0 ==> s[i] == ' '
    ensures forall i :: b.1 <= i < |s| ==> s[i] == ' '
    ensures b.0 < b.1 ==> s[b.0] != ' ' && s[b.1 - 1] != ' '
  {
    var lead := LeadingSpaces(s);
    var rest := s[lead..];
    var trail := TrailingSpaces(rest);
    assert forall i :: |s| - trail <= i < |s| ==> s[i] == rest[i - lead];
    (lead, |s| - trail)
  }

  /** `str.strip`, for text whose only whitespace is the space. */
  function Strip(s: string): (r: string)
    ensures r == s[StripBounds(s).0..StripBounds(s).1]
    ensures Trimmed(r)
    ensures Unspaced(r) == Unspaced(s)
    ensures Words(r) == Words(s)
    ensures NoDoubleSpace(s) ==> NoDoubleSpace(r)
  {
    var (lo, hi) := StripBounds(s);
    UnspacedSlice(s, lo, hi);
    WordsSlice(s, lo, hi);
    TrimmedSlice(s, lo, hi);
    SliceKeepsNoDoubleSpace(s, lo, hi);
    s[lo..hi]
  }

  /** Cutting spaces off both ends keeps the words. */
  lemma WordsSlice(s: string, lo: int, hi: int)
    requires 0 <= lo <= hi <= |s|
    requires forall i :: 0 <= i < lo ==> s[i] == ' '
    requires forall i :: hi <= i < |s| ==> s[i] == ' '
    ensures Words(s[lo..hi]) == Words(s)
  {
    SplitThree(s, lo, hi);
    WordsAppendSpaces(s[..lo] + s[lo..hi], s[hi..]);
    WordsPrependSpaces(s[..lo], s[lo..hi]);
  }

  lemma TrimmedSlice(s: string, lo: int, hi: int)
    requires 0 <= lo <= hi <= |s|
    requires lo < hi ==> s[lo] != ' ' && s[hi - 1] != ' '
    ensures Trimmed(s[lo..hi])
  {
  }

  lemma SliceKeepsNoDoubleSpace(s: string, lo: int, hi: int)
    requires 0 <= lo <= hi <= |s|
    ensures NoDoubleSpace(s) ==> NoDoubleSpace(s[lo..hi])
  {
    if NoDoubleSpace(s) {
      forall i | 0 <= i < hi - lo - 1 ensures !(s[lo..hi][i] == ' ' && s[lo..hi][i + 1] == ' ') {
        assert s[lo..hi][i] == s[lo + i] && s[lo..hi][i + 1] == s[lo + i + 1];
      }
    }
  }

  /** Spaces normalised as `convert_to_latin` finishes: collapsed runs, then stripped. */
  function Squeeze(s: string): (r: string)
    ensures Trimmed(r) && NoDoubleSpace(r)
    ensures Unspaced(r) == Unspaced(s)
    ensures Words(r) == Words(s)
  {
    Strip(Collapse(s))
  }

  /** What `convert_to_latin` returns. */
  function Latin(text: Option<string>): (r: string)
    ensures Trimmed(r)
  {
    if text.None? || text.value == [] then "" else Squeeze(Transliterate(text.value))
  }

  /**
   * `convert_to_latin`: '' for no text; otherwise the transliterated text with runs of
   * spaces collapsed and the ends stripped, keeping every non-space character it produced.
   */
  method ConvertToLatin(text: Option<string>) returns (latin: string)
    ensures text.None? || text.value == [] ==> latin == ""
    ensures latin == Latin(text)
    ensures Trimmed(latin) && NoDoubleSpace(latin)
    ensures text.Some? ==> Unspaced(latin) == Unspaced(Transliterate(text.value))
    ensures text.Some? ==> Words(latin) == Words(Transliterate(text.value))
  {
    if text.None? || text.value == [] {
      return "";
    }
    var s := text.value;
    var latinText := "";
    var k := 0;
    while k < |s|
      invariant 0 <= k <= |s|
      invariant latinText == Transliterate(s[..k])
    {
      assert s[..k + 1][..k] == s[..k];
      var c := s[k];
      var entry := LatinOf(c);
      if entry.Some? {
        latinText := latinText + entry.value;
      } else if IsAlpha(c) {
        latinText := latinText + [Lower(c)];
      } else if c == ' ' {
        latinText := latinText + " ";
      }
      k := k + 1;
    }
    assert s[..k] == s;
    latin := Squeeze(latinText);
  }

  // ------------------------------------------------------------ usernames

  /** `f"{first_name} {last_name}"`, where a missing part renders as "None". */
  function FullName(first: Option<string>, last: Option<string>): string
  {
    (if first.Some? then first.value else "None") + " " + (if last.Some? then last.value else "None")
  }

  /** `x or ''` for an optional name part. */
  function OrEmpty(s: Option<string>): Option<string>
  {
    if s.Some? then s else Some("")
  }

  /** Characters before the first space. */
  function FirstWord(s: string): (w: string)
    ensures ' ' !in w && |w| <= |s| && w == s[..|w|]
  {
    if s == [] || s[0] == ' ' then [] else [s[0]] + FirstWord(s[1..])
  }

  /** Characters after the last space. */
  function LastWord(s: string): (w: string)
    ensures ' ' !in w && |w| <= |s| && w == s[|s| - |w|..]
  {
    if s == [] || s[|s| - 1] == ' ' then [] else LastWord(s[..|s| - 1]) + [s[|s| - 1]]
  }

  /** A trimmed text with a space has non-empty first and last words. */
  lemma WordsNonEmpty(s: string)
    requires Trimmed(s) && ' ' in s
    ensures |FirstWord(s)| >= 1 && |LastWord(s)| >= 1
  {
  }

  function LowerAll(s: string): (r: string)
    ensures |r| == |s|
    ensures forall i :: 0 <= i < |s| ==> r[i] == Lower(s[i])
  {
    if s == [] then [] else LowerAll(s[..|s| - 1]) + [Lower(s[|s| - 1])]
  }

  /**
   * The Latin first and last names after the fallbacks of `generate_username`: both parts
   * when neither is empty; otherwise, from the Latin full name, a single word gives its
   * first letter and the word, several words give the first and the last word, and no
   * name at all gives "user" and "member".
   */
  function NameParts(f: string, l: string, full: string): (r: (string, string))
    requires Trimmed(f) && Trimmed(full)
    ensures |r.0| >= 1 && r.0[0] != ' '
    ensures f != [] && l != [] ==> r == (f, l)
    ensures (f == [] || l == []) && full == [] ==> r == ("user", "member")
    ensures (f == [] || l == []) && full != [] && ' ' !in full ==> r == ([full[0]], full)
    ensures (f == [] || l == []) && ' ' in full ==>
              r == (FirstWord(full), LastWord(full)) && r.1 != [] && ' ' !in r.0 + r.1
  {
    if f != [] && l != [] then (f, l)
    else if full == [] then ("user", "member")
    else if ' ' !in full then ([full[0]], full)
    else (WordsNonEmpty(full); (FirstWord(full), LastWord(full)))
  }

  /** The name parts of a member, from its optional first and last names. */
  function MemberNameParts(first: Option<string>, last: Option<string>): (string, string)
  {
    NameParts(Latin(OrEmpty(first)), Latin(OrEmpty(last)), Latin(Some(FullName(first, last))))
  }

  /** `f"{first_letter}.{last_name_clean}313"`, with the last name lowered and its spaces removed. */
  function ComposeUsername(letter: char, lastName: string): (u: string)
    requires letter != ' '
    ensures |u| >= 5 && u[0] == letter && u[1] == '.' && u[|u| - 3..] == "313" && ' ' !in u
    ensures u[2..|u| - 3] == Unspaced(LowerAll(lastName))
  {
    var clean := Unspaced(LowerAll(lastName));
    var u := [letter] + "." + clean + "313";
    assert u[2..|u| - 3] == clean;
    u
  }

  /** The username tried first, before any counter. */
  function BaseUsername(first: Option<string>, last: Option<string>): (u: string)
    ensures |u| >= 5 && u[1] == '.' && u[|u| - 3..] == "313" && ' ' !in u
    ensures u[0] == Lower(MemberNameParts(first, last).0[0])
    ensures u[2..|u| - 3] == Unspaced(LowerAll(MemberNameParts(first, last).1))
  {
    var parts := MemberNameParts(first, last);
    ComposeUsername(Lower(parts.0[0]), parts.1)
  }

  /** The `k`-th name tried: the base itself, then the base followed by 1, 2, ... */
  function Candidate(base: string, k: nat): (c: string)
    ensures k == 0 ==> c == base
    ensures k > 0 ==> |c| > |base| && c[..|base|] == base
  {
    if k == 0 then base else base + NatToString(k)
  }

  lemma CandidatesDistinct(base: string, j: nat, k: nat)
    requires j != k
    ensures Candidate(base, j) != Candidate(base, k)
  {
    if j > 0 && k > 0 && Candidate(base, j) == Candidate(base, k) {
      assert Candidate(base, j)[|base|..] == NatToString(j);
      assert Candidate(base, k)[|base|..] == NatToString(k);
      NatToStringInjective(j, k);
    }
  }

  /** The first half of `generate_username`: the Latin name parts with their fallbacks, composed. */
  method ComputeBaseUsername(first: Option<string>, last: Option<string>) returns (base: string)
    ensures base == BaseUsername(first, last)
  {
    var firstLatin := ConvertToLatin(OrEmpty(first));
    var lastLatin := ConvertToLatin(OrEmpty(last));
    if firstLatin == [] || lastLatin == [] {
      var fullName := ConvertToLatin(Some(FullName(first, last)));
      if fullName != [] {
        if ' ' !in fullName {
          lastLatin := fullName;
          firstLatin := [fullName[0]];
        } else {
          WordsNonEmpty(fullName);
          firstLatin := FirstWord(fullName);
          lastLatin := LastWord(fullName);
        }
      } else {
        firstLatin := "user";
        lastLatin := "member";
      }
    }
    assert (firstLatin, lastLatin) == MemberNameParts(first, last);
    var firstLetter := Lower(firstLatin[0]);
    var lastNameClean := Unspaced(LowerAll(lastLatin));
    base := [firstLetter] + "." + lastNameClean + "313";
  }

  /** The collision loop of `generate_username`: the first candidate not in `taken`. */
  method FirstFreeCandidate(base: string, taken: set<string>) returns (username: string)
    ensures username !in taken
    ensures exists n: nat :: username == Candidate(base, n) && forall j: nat :: j < n ==> Candidate(base, j) in taken
  {
    username := base;
    var counter := 1;
    ghost var remaining := taken;
    while username in taken
      invariant counter >= 1 && username == Candidate(base, counter - 1)
      invariant remaining <= taken
      invariant forall j: nat :: j < counter - 1 ==> Candidate(base, j) in taken && Candidate(base, j) !in remaining
      invariant forall x :: x in taken && (forall j: nat :: j < counter - 1 ==> x != Candidate(base, j)) ==> x in remaining
      decreases |remaining|
    {
      forall j: nat | j < counter - 1 ensures Candidate(base, j) != username {
        CandidatesDistinct(base, j, counter - 1);
      }
      remaining := remaining - {username};
      username := base + NatToString(counter);
      counter := counter + 1;
    }
  }

  /**
   * `generate_username`: the base username when it is free, otherwise the base followed by
   * the smallest counter that gives a name not in `taken` (the existing usernames).
   */
  method GenerateUsername(first: Option<string>, last: Option<string>, taken: set<string>) returns (username: string)
    ensures username !in taken
    ensures exists n: nat :: username == Candidate(BaseUsername(first, last), n)
                             && forall j: nat :: j < n ==> Candidate(BaseUsername(first, last), j) in taken
  {
    var base := ComputeBaseUsername(first, last);
    username := FirstFreeCandidate(base, taken);
  }

  // ------------------------------------------------------------ ranks

  /** Active members with a strictly greater total. */
  function Ahead(members: map<int, Member>, score: int): set<int>
  {
    set id | id in members && members[id].isActive && members[id].totalScore > score
  }

  /** Active members of a group with a strictly greater total. */
  function AheadInGroup(members: map<int, Member>, group: int, score: int): set<int>
  {
    set id | id in members && members[id].isActive && members[id].group == group && members[id].totalScore > score
  }

  function ActiveMembers(members: map<int, Member>): set<int>
  {
    set id | id in members && members[id].isActive
  }

  /** Overall rank in `user_progress`: one more than the active members strictly ahead. */
  function OverallRank(members: map<int, Member>, member: Member): (rank: int)
    ensures rank >= 1
  {
    |Ahead(members, member.totalScore)| + 1
  }

  /** Group rank: one more than the active members of the same group strictly ahead. */
  function GroupRank(members: map<int, Member>, member: Member): (rank: int)
    ensures rank >= 1
  {
    |AheadInGroup(members, member.group, member.totalScore)| + 1
  }

  /** A group rank is never worse than the overall rank. */
  lemma GroupRankAtMostOverall(members: map<int, Member>, member: Member)
    ensures GroupRank(members, member) <= OverallRank(members, member)
  {
    SubsetNoLarger(AheadInGroup(members, member.group, member.totalScore), Ahead(members, member.totalScore));
  }

  /** A higher total never gives a worse rank. */
  lemma RankMonotone(members: map<int, Member>, a: Member, b: Member)
    requires a.totalScore >= b.totalScore
    ensures OverallRank(members, a) <= OverallRank(members, b)
  {
    SubsetNoLarger(Ahead(members, a.totalScore), Ahead(members, b.totalScore));
  }

  /** An active member stored in the table ranks within the count of active members. */
  lemma RankWithinActive(members: map<int, Member>, id: int)
    requires id in members && members[id].isActive
    ensures OverallRank(members, members[id]) <= |ActiveMembers(members)|
  {
    var ahead := Ahead(members, members[id].totalScore);
    assert id !in ahead;
    SubsetNoLarger(ahead + {id}, ActiveMembers(members));
  }

  /** The week `user_progress` ranks by: back `(weekday + 2) % 7` days to Saturday. */
  function ViewWeekStart(today: int): int
  {
    today - (Weekday(today) + 2) % 7
  }

  /** The view's week is the week the score ledger files a score under. */
  lemma ViewWeekMatchesLedger(today: int)
    ensures BooksAdmin.WeekBounds(Some(today * SECONDS_PER_DAY)) == Some((ViewWeekStart(today), ViewWeekStart(today) + 6))
  {
    assert DayOf(today * SECONDS_PER_DAY) == today;
    var start := ViewWeekStart(today);
    assert Weekday(start) == BooksAdmin.SATURDAY by {
      assert (start + 3) % 7 == ((today + 3) - (Weekday(today) + 2) % 7) % 7;
    }
    BooksAdmin.WeekStartUnique(today * SECONDS_PER_DAY, start);
  }

  /** The member's own weekly score for the week, 0 without a bucket. */
  function OwnWeeklyScore(weekly: map<(int, int), WeeklyScore>, member: int, weekStart: int): int
  {
    if (member, weekStart) in weekly then weekly[(member, weekStart)].score else 0
  }

  /** Buckets of the week, of active members, with a strictly greater score. */
  function AheadThisWeek(weekly: map<(int, int), WeeklyScore>, members: map<int, Member>, weekStart: int, score: int): set<(int, int)>
  {
    set k | k in weekly && k.1 == weekStart && k.0 in members && members[k.0].isActive && weekly[k].score > score
  }

  /** Weekly rank: one more than the week's buckets strictly ahead. */
  function WeeklyRank(weekly: map<(int, int), WeeklyScore>, members: map<int, Member>, member: int, today: int): (rank: int)
    ensures rank >= 1
  {
    |AheadThisWeek(weekly, members, ViewWeekStart(today), OwnWeeklyScore(weekly, member, ViewWeekStart(today)))| + 1
  }

  /** A member without a bucket this week ranks behind every bucket with a positive score. */
  lemma NoBucketRanksBehindPositive(weekly: map<(int, int), WeeklyScore>, members: map<int, Member>, member: int, today: int, other: int)
    requires (member, ViewWeekStart(today)) !in weekly
    requires (other, ViewWeekStart(today)) in weekly && weekly[(other, ViewWeekStart(today))].score > 0
    requires other in members && members[other].isActive
    ensures WeeklyRank(weekly, members, member, today) >= 2
  {
    var ahead := AheadThisWeek(weekly, members, ViewWeekStart(today), 0);
    assert (other, ViewWeekStart(today)) in ahead;
  }

  // ------------------------------------------------------------ progress partition

  /** `assignments.filter(book=book).first()` over the member's assignments in query order. */
  function FirstLoanOf(loans: seq<Assignment>, book: int): (r: Option<Assignment>)
    ensures r.Some? ==> r.value in loans && r.value.book == book
    ensures r.None? <==> forall i :: 0 <= i < |loans| ==> loans[i].book != book
  {
    if loans == [] then None
    else if loans[0].book == book then Some(loans[0])
    else FirstLoanOf(loans[1..], book)
  }

  /** A completed row: the book, its assignment and the score earned on it. */
  datatype CompletedRow = CompletedRow(book: int, assignment: Assignment, score: int)

  /** An uncompleted row: the book and its assignment, if any. */
  datatype UncompletedRow = UncompletedRow(book: int, assignment: Option<Assignment>)

  predicate IsCompletedBook(loans: seq<Assignment>, book: int)
  {
    FirstLoanOf(loans, book).Some? && FirstLoanOf(loans, book).value.isCompleted
  }

  /** The completed rows for the stage books, in stage order. */
  function CompletedRows(stageBooks: seq<int>, loans: seq<Assignment>): (rows: seq<CompletedRow>)
    ensures forall i :: 0 <= i < |rows| ==>
              && rows[i].book in stageBooks && IsCompletedBook(loans, rows[i].book)
              && rows[i].assignment == FirstLoanOf(loans, rows[i].book).value
              && rows[i].score == rows[i].assignment.readingScoreEarned + rows[i].assignment.quizScoreEarned
  {
    if stageBooks == [] then []
    else
      var b := stageBooks[|stageBooks| - 1];
      var init := CompletedRows(stageBooks[..|stageBooks| - 1], loans);
      if IsCompletedBook(loans, b) then
        var a := FirstLoanOf(loans, b).value;
        init + [CompletedRow(b, a, a.readingScoreEarned + a.quizScoreEarned)]
      else init
  }

  /** The uncompleted rows for the stage books, in stage order. */
  function UncompletedRows(stageBooks: seq<int>, loans: seq<Assignment>): (rows: seq<UncompletedRow>)
    ensures forall i :: 0 <= i < |rows| ==>
              && rows[i].book in stageBooks && !IsCompletedBook(loans, rows[i].book)
              && rows[i].assignment == FirstLoanOf(loans, rows[i].book)
  {
    if stageBooks == [] then []
    else
      var b := stageBooks[|stageBooks| - 1];
      var init := UncompletedRows(stageBooks[..|stageBooks| - 1], loans);
      if IsCompletedBook(loans, b) then init else init + [UncompletedRow(b, FirstLoanOf(loans, b))]
  }

  /** The two lists together have one row per stage book. */
  lemma {:induction false} PartitionSizes(stageBooks: seq<int>, loans: seq<Assignment>)
    ensures |CompletedRows(stageBooks, loans)| + |UncompletedRows(stageBooks, loans)| == |stageBooks|
  {
    if stageBooks != [] {
      PartitionSizes(stageBooks[..|stageBooks| - 1], loans);
    }
  }

  /** Every stage book is listed: as completed when its first assignment is completed, else as uncompleted. */
  lemma {:induction false} EveryStageBookListed(stageBooks: seq<int>, loans: seq<Assignment>, b: int)
    requires b in stageBooks
    ensures IsCompletedBook(loans, b) ==> exists i :: 0 <= i < |CompletedRows(stageBooks, loans)| && CompletedRows(stageBooks, loans)[i].book == b
    ensures !IsCompletedBook(loans, b) ==> exists i :: 0 <= i < |UncompletedRows(stageBooks, loans)| && UncompletedRows(stageBooks, loans)[i].book == b
  {
    var init := stageBooks[..|stageBooks| - 1];
    var last := stageBooks[|stageBooks| - 1];
    var c, u := CompletedRows(stageBooks, loans), UncompletedRows(stageBooks, loans);
    if b == last {
      if IsCompletedBook(loans, b) {
        assert c[|c| - 1].book == b;
      } else {
        assert u[|u| - 1].book == b;
      }
    } else {
      assert b in init by {
        assert stageBooks == init + [last];
      }
      EveryStageBookListed(init, loans, b);
      var c0, u0 := CompletedRows(init, loans), UncompletedRows(init, loans);
      assert c[..|c0|] == c0 && u[..|u0|] == u0;
      if IsCompletedBook(loans, b) {
        var i :| 0 <= i < |c0| && c0[i].book == b;
        assert c[i].book == b;
      } else {
        var i :| 0 <= i < |u0| && u0[i].book == b;
        assert u[i].book == b;
      }
    }
  }

  /**
   * The partition loop of `member_progress` and `user_progress`: each stage book goes to
   * the completed list when its first assignment is completed and to the uncompleted
   * list otherwise.
   */
  method PartitionStageBooks(stageBooks: seq<int>, loans: seq<Assignment>)
    returns (completed: seq<CompletedRow>, uncompleted: seq<UncompletedRow>)
    ensures completed == CompletedRows(stageBooks, loans)
    ensures uncompleted == UncompletedRows(stageBooks, loans)
  {
    completed, uncompleted := [], [];
    var k := 0;
    while k < |stageBooks|
      invariant 0 <= k <= |stageBooks|
      invariant completed == CompletedRows(stageBooks[..k], loans)
      invariant uncompleted == UncompletedRows(stageBooks[..k], loans)
    {
      assert stageBooks[..k + 1][..k] == stageBooks[..k];
      var book := stageBooks[k];
      var assignment := FirstLoanOf(loans, book);
      if assignment.Some? && assignment.value.isCompleted {
        completed := completed + [CompletedRow(book, assignment.value, assignment.value.readingScoreEarned + assignment.value.quizScoreEarned)];
      } else {
        uncompleted := uncompleted + [UncompletedRow(book, assignment)];
      }
      k := k + 1;
    }
    assert stageBooks[..k] == stageBooks;
  }

  /** No stage book is in both lists. */
  lemma PartitionDisjoint(stageBooks: seq<int>, loans: seq<Assignment>, c: CompletedRow, u: UncompletedRow)
    requires c in CompletedRows(stageBooks, loans) && u in UncompletedRows(stageBooks, loans)
    ensures c.book != u.book
  {
  }
}

=== FILE: context_processors.dfy ===
/**
 * The notifications context processor: due-date reminders created once per assignment,
 * the header's five most relevant notifications, and the unread count.
 */
module ContextProcessors {
  import opened Wrappers
  import opened Store

  // ------------------------------------------------------------ due reminders

  /** The member's incomplete assignments due on day `day`. */
  function DueOn(assignments: map<int, Assignment>, member: int, day: int): (ids: set<int>)
    ensures forall id :: id in ids <==>
              (id in assignments && assignments[id].member == member
               && !assignments[id].isCompleted && assignments[id].dueDate.Some?
               && DayOf(assignments[id].dueDate.value) == day)
  {
    set id | id in assignments && assignments[id].member == member && !assignments[id].isCompleted
             && assignments[id].dueDate.Some? && DayOf(assignments[id].dueDate.value) == day
  }

  /** A due notification to `user` about assignment `id` exists. */
  predicate HasDueFor(ns: seq<Notification>, user: int, id: int)
  {
    exists i | 0 <= i < |ns| :: ns[i].kind == Due && ns[i].recipient == Some(user) && ns[i].assignment == Some(id)
  }

  /** At most one due notification per (recipient, assignment). */
  ghost predicate AtMostOneDue(ns: seq<Notification>)
  {
    forall i, j :: 0 <= i < j < |ns| && ns[i].kind == Due && ns[j].kind == Due ==>
      ns[i].recipient != ns[j].recipient || ns[i].assignment != ns[j].assignment
  }

  /** The reminder `get_or_create` makes when none exists. */
  function Reminder(user: int, id: int, now: int): Notification
  {
    Notification(Due, Some(user), Some(id), false, now)
  }

  /** `Notification.objects.get_or_create` for the due reminder of one assignment. */
  method GetOrCreateReminder(db: Database, user: int, id: int, now: int)
    modifies db`notifications
    ensures HasDueFor(old(db.notifications), user, id) ==> db.notifications == old(db.notifications)
    ensures !HasDueFor(old(db.notifications), user, id) ==> db.notifications == old(db.notifications) + [Reminder(user, id, now)]
    ensures HasDueFor(db.notifications, user, id)
    ensures forall x :: HasDueFor(old(db.notifications), user, x) ==> HasDueFor(db.notifications, user, x)
    ensures AtMostOneDue(old(db.notifications)) ==> AtMostOneDue(db.notifications)
  {
    if !HasDueFor(db.notifications, user, id) {
      ghost var prev := db.notifications;
      db.notifications := db.notifications + [Reminder(user, id, now)];
      assert db.notifications[|prev|] == Reminder(user, id, now);
      forall x | HasDueFor(prev, user, x) ensures HasDueFor(db.notifications, user, x) {
        var i :| 0 <= i < |prev| && prev[i].kind == Due && prev[i].recipient == Some(user) && prev[i].assignment == Some(x);
        assert db.notifications[i] == prev[i];
      }
    }
  }

  /**
   * What the reminder loop has done so far: rows before it are kept, every assignment in
   * `covered` has a reminder, each added row is a reminder for a due assignment, and
   * uniqueness is kept.
   */
  ghost predicate RemindersSoFar(before: seq<Notification>, current: seq<Notification>, due: set<int>,
                                 covered: set<int>, user: int, now: int)
  {
    |current| >= |before| && current[..|before|] == before
    && (forall id :: id in covered ==> HasDueFor(current, user, id))
    && (forall i :: |before| <= i < |current| ==> exists id :: id in due && current[i] == Reminder(user, id, now))
    && (AtMostOneDue(before) ==> AtMostOneDue(current))
  }

  /** One step of the reminder loop: covers `id`. */
  method RemindOne(db: Database, ghost before: seq<Notification>, ghost due: set<int>, ghost covered: set<int>,
                   user: int, id: int, now: int)
    requires id in due
    requires RemindersSoFar(before, db.notifications, due, covered, user, now)
    modifies db`notifications
    ensures RemindersSoFar(before, db.notifications, due, covered + {id}, user, now)
    ensures HasDueFor(old(db.notifications), user, id) ==> db.notifications == old(db.notifications)
  {
    ghost var prev := db.notifications;
    GetOrCreateReminder(db, user, id, now);
    if db.notifications != prev {
      assert db.notifications[..|before|] == prev[..|before|];
      assert db.notifications[..|prev|] == prev;
      forall i | |before| <= i < |db.notifications|
        ensures exists x :: x in due && db.notifications[i] == Reminder(user, x, now)
      {
        if i == |prev| {
          assert db.notifications[i] == Reminder(user, id, now);
        } else {
          assert db.notifications[i] == prev[i];
        }
      }
    }
  }

  /**
   * `_ensure_due_notifications`: every incomplete assignment of the member due two days
   * from now gets a due reminder to the user unless it already has one. Existing rows are
   * kept; new rows are unread reminders created now.
   */
  method EnsureDueNotifications(db: Database, user: int, member: int, now: int)
    modifies db`notifications
    ensures |db.notifications| >= |old(db.notifications)| && db.notifications[..|old(db.notifications)|] == old(db.notifications)
    ensures forall id :: id in DueOn(db.assignments, member, DayOf(now + 2 * SECONDS_PER_DAY)) ==> HasDueFor(db.notifications, user, id)
    ensures forall i :: |old(db.notifications)| <= i < |db.notifications| ==>
              exists id :: id in DueOn(db.assignments, member, DayOf(now + 2 * SECONDS_PER_DAY))
                           && db.notifications[i] == Reminder(user, id, now)
    ensures AtMostOneDue(old(db.notifications)) ==> AtMostOneDue(db.notifications)
    ensures (forall id :: id in DueOn(db.assignments, member, DayOf(now + 2 * SECONDS_PER_DAY)) ==> HasDueFor(old(db.notifications), user, id))
            ==> db.notifications == old(db.notifications)
  {
    var reminderDay := DayOf(now + 2 * SECONDS_PER_DAY);
    var due := DueOn(db.assignments, member, reminderDay);
    var todo := due;
    ghost var before := db.notifications;
    ghost var allCovered := forall id :: id in due ==> HasDueFor(before, user, id);
    assert db.notifications[..|before|] == before;
    while todo != {}
      invariant todo <= due
      invariant RemindersSoFar(before, db.notifications, due, due - todo, user, now)
      invariant allCovered ==> db.notifications == before
      decreases |todo|
    {
      NonEmptyIds(todo);
      var id :| id in todo;
      RemindOne(db, before, due, due - todo, user, id, now);
      assert (due - todo) + {id} == due - (todo - {id});
      todo := todo - {id};
    }
    assert due - todo == due;
  }

  // ------------------------------------------------------------ header list

  /** Notifications addressed to the user or to everyone. */
  predicate Visible(n: Notification, user: int)
  {
    n.recipient == Some(user) || n.recipient.None?
  }

  /** The header order: unread before read, then newest first. */
  predicate Before(a: Notification, b: Notification)
  {
    (!a.isRead && b.isRead) || (a.isRead == b.isRead && a.createdAt >= b.createdAt)
  }

  /** Each notification comes before the next one in header order. */
  predicate Sorted(s: seq<Notification>)
  {
    forall i :: 0 <= i < |s| - 1 ==> Before(s[i], s[i + 1])
  }

  lemma BeforeTransitive(a: Notification, b: Notification, c: Notification)
    requires Before(a, b) && Before(b, c)
    ensures Before(a, c)
  {
  }

  /** In a sorted list every earlier notification comes before every later one. */
  lemma {:induction false} SortedPairwise(s: seq<Notification>, i: int, j: int)
    requires Sorted(s) && 0 <= i < j < |s|
    ensures Before(s[i], s[j])
    decreases j - i
  {
    if j > i + 1 {
      SortedPairwise(s, i + 1, j);
      BeforeTransitive(s[i], s[i + 1], s[j]);
    }
  }

  function VisibleTo(ns: seq<Notification>, user: int): (r: seq<Notification>)
    ensures forall i :: 0 <= i < |r| ==> Visible(r[i], user)
    ensures multiset(r) <= multiset(ns)
    ensures forall n :: n in ns && Visible(n, user) ==> n in r
  {
    if ns == [] then []
    else
      var init := VisibleTo(ns[..|ns| - 1], user);
      var n := ns[|ns| - 1];
      assert ns == ns[..|ns| - 1] + [n];
      if Visible(n, user) then init + [n] else init
  }

  /** One step of the ordering: `n` placed before the first notification it precedes. */
  function Insert(n: Notification, s: seq<Notification>): (r: seq<Notification>)
    requires Sorted(s)
    ensures Sorted(r) && |r| == |s| + 1
    ensures r[0] == n || (s != [] && r[0] == s[0])
    ensures multiset(r) == multiset(s) + multiset{n}
  {
    if s == [] then [n]
    else if Before(n, s[0]) then [n] + s
    else
      var rest := Insert(n, s[1..]);
      assert s == [s[0]] + s[1..];
      [s[0]] + rest
  }

  /** The visible notifications in header order. */
  function SortNotifications(s: seq<Notification>): (r: seq<Notification>)
    ensures Sorted(r)
    ensures multiset(r) == multiset(s)
  {
    if s == [] then []
    else
      assert s == [s[0]] + s[1..];
      Insert(s[0], SortNotifications(s[1..]))
  }

  /** `notif_qs[:5]`: the first five visible notifications in header order. */
  function HeaderList(ns: seq<Notification>, user: int): (r: seq<Notification>)
    ensures |r| <= 5 && Sorted(r)
    ensures |r| == (if |VisibleTo(ns, user)| < 5 then |VisibleTo(ns, user)| else 5)
    ensures r == SortNotifications(VisibleTo(ns, user))[..|r|]
  {
    var all := SortNotifications(VisibleTo(ns, user));
    assert |all| == |VisibleTo(ns, user)| by {
      assert |multiset(all)| == |multiset(VisibleTo(ns, user))|;
    }
    var k := if |all| < 5 then |all| else 5;
    all[..k]
  }

  /** Everything in the header is one of the user's own or general notifications from the table. */
  lemma HeaderFromVisible(ns: seq<Notification>, user: int, i: int)
    requires 0 <= i < |HeaderList(ns, user)|
    ensures Visible(HeaderList(ns, user)[i], user) && HeaderList(ns, user)[i] in ns
  {
    var all := SortNotifications(VisibleTo(ns, user));
    var x := HeaderList(ns, user)[i];
    assert x == all[i];
    assert x in multiset(all);
    assert x in multiset(VisibleTo(ns, user));
    var v := VisibleTo(ns, user);
    var j :| 0 <= j < |v| && v[j] == x;
    assert x in multiset(ns);
  }

  /** A visible notification left out of the header comes after every one shown. */
  lemma HeaderIsTopFive(ns: seq<Notification>, user: int, i: int, j: int)
    requires 0 <= i < 5 <= j < |SortNotifications(VisibleTo(ns, user))|
    ensures Before(HeaderList(ns, user)[i], SortNotifications(VisibleTo(ns, user))[j])
  {
    SortedPairwise(SortNotifications(VisibleTo(ns, user)), i, j);
  }

  // ------------------------------------------------------------ unread count

  /** Unread notifications addressed to the user; general ones are not counted. */
  function UnreadCount(ns: seq<Notification>, user: int): (c: nat)
    ensures c <= |VisibleTo(ns, user)|
  {
    if ns == [] then 0
    else UnreadCount(ns[..|ns| - 1], user) + (if !ns[|ns| - 1].isRead && ns[|ns| - 1].recipient == Some(user) then 1 else 0)
  }

  /** A general announcement never changes anyone's unread count. */
  lemma GeneralNotCounted(ns: seq<Notification>, user: int, n: Notification)
    requires n.recipient.None?
    ensures UnreadCount(ns + [n], user) == UnreadCount(ns, user)
  {
    assert (ns + [n])[..|ns|] == ns;
  }

  /** Member `id` is an active member belonging to `user`. */
  predicate ActiveMemberOf(members: map<int, Member>, user: int, id: int)
  {
    id in members && members[id].user == Some(user) && members[id].isActive
  }

  /**
   * The reminder run for `member` took `before` to `after`: every assignment of the member
   * due on the reminder day has a reminder to the user, and each added row is such a reminder.
   */
  ghost predicate RemindedFor(before: seq<Notification>, after: seq<Notification>, assignments: map<int, Assignment>,
                              user: int, member: int, now: int)
  {
    var due := DueOn(assignments, member, DayOf(now + 2 * SECONDS_PER_DAY));
    |after| >= |before|
    && (forall id :: id in due ==> HasDueFor(after, user, id))
    && (forall i :: |before| <= i < |after| ==> exists id :: id in due && after[i] == Reminder(user, id, now))
  }

  /**
   * `notifications`: for an anonymous request an empty list and 0; otherwise the user's
   * active member (if any) gets its reminders, then the header list and unread count.
   */
  method Notifications(db: Database, user: int, authenticated: bool, now: int)
    returns (header: seq<Notification>, unread: nat)
    modifies db`notifications
    ensures !authenticated ==> header == [] && unread == 0 && db.notifications == old(db.notifications)
    ensures authenticated ==> header == HeaderList(db.notifications, user) && unread == UnreadCount(db.notifications, user)
    ensures |db.notifications| >= |old(db.notifications)| && db.notifications[..|old(db.notifications)|] == old(db.notifications)
    ensures authenticated && (exists id :: ActiveMemberOf(db.members, user, id)) ==>
              exists m :: ActiveMemberOf(db.members, user, m)
                          && RemindedFor(old(db.notifications), db.notifications, db.assignments, user, m, now)
    ensures (forall id :: !ActiveMemberOf(db.members, user, id)) ==> db.notifications == old(db.notifications)
  {
    if !authenticated {
      return [], 0;
    }
    var members := set id | id in db.members && ActiveMemberOf(db.members, user, id);
    if members != {} {
      NonEmptyIds(members);
      var member :| member in members;
      EnsureDueNotifications(db, user, member, now);
      assert RemindedFor(old(db.notifications), db.notifications, db.assignments, user, member, now);
    } else {
      assert forall id :: ActiveMemberOf(db.members, user, id) ==> id in members;
    }
    header := HeaderList(db.notifications, user);
    unread := UnreadCount(db.notifications, user);
  }
}

=== FILE: decimal.dfy ===
/** Decimal rendering of natural numbers, as Python's `str(n)` / f-strings produce it, and its inverse `int(s)`. */
module Decimal {

  predicate IsDigit(c: char)
  {
    '0' <= c <= '9'
  }

  predicate AllDigits(s: string)
  {
    forall i :: 0 <= i < |s| ==> IsDigit(s[i])
  }

  function DigitChar(d: nat): (c: char)
    requires d < 10
    ensures IsDigit(c)
  {
    (48 + d) as char
  }

  function DigitValue(c: char): (d: nat)
    requires IsDigit(c)
    ensures d < 10 && DigitChar(d) == c
  {
    (c as int) - 48
  }

  /** `str(n)` for a non-negative integer: most significant digit first, no leading zeros. */
  function NatToString(n: nat): (s: string)
    ensures |s| >= 1 && AllDigits(s)
    ensures n >= 10 <==> |s| >= 2
    decreases n
  {
    if n < 10 then [DigitChar(n)] else NatToString(n / 10) + [DigitChar(n % 10)]
  }

  /** `int(s)` for a string made of ASCII digits only. */
  function ParseDigits(s: string): nat
    requires AllDigits(s)
  {
    if |s| == 0 then 0 else 10 * ParseDigits(s[..|s| - 1]) + DigitValue(s[|s| - 1])
  }

  /** Reading back what `NatToString` wrote gives the number again. */
  lemma {:induction false} ParseNatToString(n: nat)
    ensures ParseDigits(NatToString(n)) == n
    decreases n
  {
    var s := NatToString(n);
    if n >= 10 {
      ParseNatToString(n / 10);
      assert s[..|s| - 1] == NatToString(n / 10);
    }
  }

  /** Distinct numbers have distinct renderings. */
  lemma NatToStringInjective(m: nat, n: nat)
    ensures NatToString(m) == NatToString(n) ==> m == n
  {
    ParseNatToString(m);
    ParseNatToString(n);
  }
}

=== FILE: jalali_tags.dfy ===
/** The template filters of the books app: Persian digits and the trivial cases of the Jalali date filter. */
module JalaliTags {
  import opened Wrappers

  predicate IsAsciiDigit(c: char)
  {
    '0' <= c <= '9'
  }

  /** The Persian digit with the value of ASCII digit `c`. */
  function PersianDigit(c: char): (p: char)
    requires IsAsciiDigit(c)
    ensures !IsAsciiDigit(p)
  {
    ((c as int - '0' as int) + 0x06F0) as char
  }

  /** One character after all ten replacements. */
  function ToPersianChar(c: char): char
  {
    if IsAsciiDigit(c) then PersianDigit(c) else c
  }

  /** The text after the replacements of digits `0` to `i - 1`. */
  function ReplacedBelow(s: string, i: int): (r: string)
    ensures |r| == |s|
    ensures forall j :: 0 <= j < |s| ==>
              r[j] == (if IsAsciiDigit(s[j]) && (s[j] as int - '0' as int) < i then PersianDigit(s[j]) else s[j])
  {
    seq(|s|, j requires 0 <= j < |s| =>
      if IsAsciiDigit(s[j]) && (s[j] as int - '0' as int) < i then PersianDigit(s[j]) else s[j])
  }

  /** `str.replace(old, new)` for single characters. */
  function ReplaceChar(s: string, from: char, to: char): (r: string)
    ensures |r| == |s|
    ensures forall j :: 0 <= j < |s| ==> r[j] == (if s[j] == from then to else s[j])
  {
    if s == [] then [] else ReplaceChar(s[..|s| - 1], from, to) + [if s[|s| - 1] == from then to else s[|s| - 1]]
  }

  /** The whole filter on a rendered value, as one function of the input. */
  function PersianNumber(value: Option<string>): string
  {
    if value.None? then "" else seq(|value.value|, j requires 0 <= j < |value.value| => ToPersianChar(value.value[j]))
  }

  const ENGLISH_DIGITS: string := "0123456789"
  const PERSIAN_DIGITS: string := "\U{06F0}\U{06F1}\U{06F2}\U{06F3}\U{06F4}\U{06F5}\U{06F6}\U{06F7}\U{06F8}\U{06F9}"

  /**
   * `to_persian_number`: '' for None; otherwise every ASCII digit of the rendered value
   * is replaced by the Persian digit of the same value, and every other character kept.
   * `value` is `str(value)` as the caller renders it.
   */
  method ToPersianNumber(value: Option<string>) returns (r: string)
    ensures value.None? ==> r == ""
    ensures value.Some? ==> |r| == |value.value|
    ensures value.Some? ==> forall j :: 0 <= j < |r| ==> r[j] == ToPersianChar(value.value[j])
    ensures r == PersianNumber(value)
  {
    if value.None? {
      return "";
    }
    var valueStr := value.value;
    var i := 0;
    while i < 10
      invariant 0 <= i <= 10
      invariant valueStr == ReplacedBelow(value.value, i)
    {
      assert ENGLISH_DIGITS[i] == (i + '0' as int) as char;
      assert PERSIAN_DIGITS[i] == (i + 0x06F0) as char;
      valueStr := ReplaceChar(valueStr, ENGLISH_DIGITS[i], PERSIAN_DIGITS[i]);
      i := i + 1;
    }
    r := valueStr;
  }

  /** The output of the filter holds no ASCII digit. */
  lemma NoAsciiDigitsRemain(value: Option<string>)
    ensures forall j :: 0 <= j < |PersianNumber(value)| ==> !IsAsciiDigit(PersianNumber(value)[j])
  {
  }

  /** Applying the filter to its own output changes nothing. */
  lemma PersianNumberIdempotent(s: string)
    ensures PersianNumber(Some(PersianNumber(Some(s)))) == PersianNumber(Some(s))
  {
    var once := PersianNumber(Some(s));
    assert forall j :: 0 <= j < |once| ==> ToPersianChar(once[j]) == once[j];
  }

  /** The values `to_jalali` receives. */
  datatype FilterValue =
    | Null
    | Text(text: string)
    | Date(day: int)
    | DateTime(seconds: int)
    | Other(rendered: string, truthy: bool)

  /**
   * The trivial branches of `to_jalali`: '' for a false value, a string unchanged, `str(value)`
   * for anything that is not a date. None stands for the calendar conversion of a date.
   */
  function ToJalali(value: FilterValue): (r: Option<string>)
    ensures value.Null? || value == Text("") || (value.Other? && !value.truthy) ==> r == Some("")
    ensures value.Text? ==> r == Some(value.text)
    ensures value.Other? && value.truthy ==> r == Some(value.rendered)
    ensures r.None? <==> value.Date? || value.DateTime?
  {
    match value
    case Null => Some("")
    case Text(s) => Some(s)
    case Other(rendered, truthy) => if truthy then Some(rendered) else Some("")
    case Date(_) => None
    case DateTime(_) => None
  }
}

=== FILE: members_models.dfy ===
/**
 * Session-time accounting of the members app: a session's duration, a user's total time,
 * the Persian rendering of a duration, and the per-day usage table that splits an
 * interval at local midnights.
 */
module MembersModels {
  import opened Wrappers
  import opened Decimal
  import opened Store

  /** `_current_end_time`: the logout time, or now while the session is open. */
  function EndTime(s: Session, now: int): (t: int)
    ensures s.logout.Some? ==> t == s.logout.value
    ensures s.logout.None? ==> t == now
  {
    if s.logout.Some? then s.logout.value else now
  }

  /** Whole seconds from login to the end time, never negative. */
  function SessionSeconds(s: Session, now: int): (d: nat)
    ensures d >= EndTime(s, now) - s.login
    ensures d == 0 || d == EndTime(s, now) - s.login
  {
    if EndTime(s, now) - s.login > 0 then EndTime(s, now) - s.login else 0
  }

  /** `update_duration`: only the duration changes, to the session's current length. */
  function UpdateDuration(s: Session, now: int): (r: Session)
    ensures r.user == s.user && r.login == s.login && r.logout == s.logout
    ensures s.logout.Some? && s.logout.value >= s.login ==> r.duration == s.logout.value - s.login
    ensures s.logout.None? && now >= s.login ==> r.duration == now - s.login
    ensures EndTime(s, now) < s.login ==> r.duration == 0
  {
    s.(duration := SessionSeconds(s, now))
  }

  /** Sum of the stored durations of the user's closed sessions. */
  function ClosedTotal(sessions: seq<Session>, user: int): nat
  {
    if sessions == [] then 0
    else
      var s := sessions[|sessions| - 1];
      ClosedTotal(sessions[..|sessions| - 1], user) + (if s.user == user && s.logout.Some? then s.duration else 0)
  }

  /** Sum of the running lengths of the user's open sessions. */
  function OpenTotal(sessions: seq<Session>, user: int, now: int): nat
  {
    if sessions == [] then 0
    else
      var s := sessions[|sessions| - 1];
      OpenTotal(sessions[..|sessions| - 1], user, now) + (if s.user == user && s.logout.None? then SessionSeconds(s, now) else 0)
  }

  /** Sum of the current lengths of all the user's sessions, recomputed from their times. */
  function LengthTotal(sessions: seq<Session>, user: int, now: int): nat
  {
    if sessions == [] then 0
    else
      var s := sessions[|sessions| - 1];
      LengthTotal(sessions[..|sessions| - 1], user, now) + (if s.user == user then SessionSeconds(s, now) else 0)
  }

  /** Every closed session stores the length its login and logout times give. */
  predicate DurationsCurrent(sessions: seq<Session>)
  {
    forall i :: 0 <= i < |sessions| && sessions[i].logout.Some? ==>
      sessions[i].duration == SessionSeconds(sessions[i], sessions[i].logout.value)
  }

  /** When closed durations are up to date, the total is the sum of every session's length. */
  lemma {:induction false} TotalIsSumOfLengths(sessions: seq<Session>, user: int, now: int)
    requires DurationsCurrent(sessions)
    ensures ClosedTotal(sessions, user) + OpenTotal(sessions, user, now) == LengthTotal(sessions, user, now)
  {
    if sessions != [] {
      var init := sessions[..|sessions| - 1];
      assert DurationsCurrent(init) by {
        forall i | 0 <= i < |init| ensures init[i] == sessions[i] { }
      }
      TotalIsSumOfLengths(init, user, now);
      var s := sessions[|sessions| - 1];
      if s.logout.Some? {
        assert s.duration == SessionSeconds(s, s.logout.value);
      }
    }
  }

  /** `total_duration_for_user`: closed durations as stored plus open sessions' running time. */
  method TotalDurationForUser(db: Database, user: int, now: int) returns (total: nat)
    ensures total == ClosedTotal(db.sessions, user) + OpenTotal(db.sessions, user, now)
    ensures DurationsCurrent(db.sessions) ==> total == LengthTotal(db.sessions, user, now)
  {
    var closedTotal := 0;
    var openTotal := 0;
    var k := 0;
    while k < |db.sessions|
      invariant 0 <= k <= |db.sessions|
      invariant closedTotal == ClosedTotal(db.sessions[..k], user)
      invariant openTotal == OpenTotal(db.sessions[..k], user, now)
    {
      var s := db.sessions[k];
      assert db.sessions[..k + 1][..k] == db.sessions[..k];
      if s.user == user {
        if s.logout.Some? {
          closedTotal := closedTotal + s.duration;
        } else {
          var running := now - s.login;
          openTotal := openTotal + (if running > 0 then running else 0);
        }
      }
      k := k + 1;
    }
    assert db.sessions[..k] == db.sessions;
    total := closedTotal + openTotal;
    if DurationsCurrent(db.sessions) {
      TotalIsSumOfLengths(db.sessions, user, now);
    }
  }

  const HOURS_WORD: string := " \U{0633}\U{0627}\U{0639}\U{062A}"
  const MINUTES_WORD: string := " \U{062F}\U{0642}\U{06CC}\U{0642}\U{0647}"
  const SECONDS_WORD: string := " \U{062B}\U{0627}\U{0646}\U{06CC}\U{0647}"
  const JOINER: string := " \U{0648} "

  /** The parts `_format_seconds` joins: hours and minutes when non-zero, seconds only when neither is. */
  function FormatParts(total: nat): (parts: seq<string>)
    ensures 1 <= |parts| <= 2
    ensures total < 60 <==> parts == [NatToString(total) + SECONDS_WORD]
    ensures total >= 3600 <==> parts[0] == NatToString(total / 3600) + HOURS_WORD
    ensures (total % 3600) / 60 != 0 <==> parts[|parts| - 1] == NatToString((total % 3600) / 60) + MINUTES_WORD
    ensures |parts| == 2 <==> total >= 3600 && (total % 3600) / 60 != 0
  {
    var hours := total / 3600;
    var minutes := (total % 3600) / 60;
    var seconds := (total % 3600) % 60;
    SuffixDistinct(hours, minutes, seconds, total);
    if hours != 0 && minutes != 0 then [NatToString(hours) + HOURS_WORD, NatToString(minutes) + MINUTES_WORD]
    else if hours != 0 then [NatToString(hours) + HOURS_WORD]
    else if minutes != 0 then [NatToString(minutes) + MINUTES_WORD]
    else [NatToString(seconds) + SECONDS_WORD]
  }

  /** The three unit words end differently, so parts with different units never coincide. */
  lemma SuffixDistinct(hours: nat, minutes: nat, seconds: nat, total: nat)
    ensures NatToString(hours) + HOURS_WORD != NatToString(minutes) + MINUTES_WORD
    ensures NatToString(hours) + HOURS_WORD != NatToString(total) + SECONDS_WORD
    ensures NatToString(minutes) + MINUTES_WORD != NatToString(total) + SECONDS_WORD
    ensures NatToString(hours) + HOURS_WORD != NatToString(seconds) + SECONDS_WORD
    ensures NatToString(minutes) + MINUTES_WORD != NatToString(seconds) + SECONDS_WORD
  {
    var h := NatToString(hours) + HOURS_WORD;
    var m := NatToString(minutes) + MINUTES_WORD;
    var s := NatToString(total) + SECONDS_WORD;
    var s2 := NatToString(seconds) + SECONDS_WORD;
    assert h[|h| - 1] == '\U{062A}';
    assert m[|m| - 1] == '\U{0647}' && m[|m| - 2] == '\U{0642}';
    assert s[|s| - 1] == '\U{0647}' && s[|s| - 2] == '\U{06CC}';
    assert s2[|s2| - 1] == '\U{0647}' && s2[|s2| - 2] == '\U{06CC}';
  }

  function Join(parts: seq<string>, sep: string): string
  {
    if parts == [] then "" else if |parts| == 1 then parts[0] else parts[0] + sep + Join(parts[1..], sep)
  }

  /** `_format_seconds`. */
  function FormatSeconds(total: nat): (text: string)
    ensures total < 60 ==> text == NatToString(total) + SECONDS_WORD
    ensures total >= 3600 && (total % 3600) / 60 != 0 ==>
              text == NatToString(total / 3600) + HOURS_WORD + JOINER + NatToString((total % 3600) / 60) + MINUTES_WORD
    ensures total >= 3600 && (total % 3600) / 60 == 0 ==> text == NatToString(total / 3600) + HOURS_WORD
    ensures 60 <= total < 3600 ==> text == NatToString(total / 60) + MINUTES_WORD
  {
    var parts := FormatParts(total);
    assert |parts| == 2 ==> Join(parts, JOINER) == parts[0] + JOINER + parts[1];
    Join(parts, JOINER)
  }

  /** Once a duration reaches a minute, its leftover seconds do not show. */
  lemma SecondsDroppedFromMinuteOn(total: nat)
    requires total >= 60
    ensures FormatSeconds(total) == FormatSeconds(total - total % 60)
  {
    var t := total - total % 60;
    assert t / 3600 == total / 3600;
    assert (t % 3600) / 60 == (total % 3600) / 60;
  }

  /** The seconds of `[start, end)` that fall on local day `day`. */
  function Overlap(start: int, end: int, day: int): (s: nat)
    ensures s <= SECONDS_PER_DAY
    ensures start <= day * SECONDS_PER_DAY && (day + 1) * SECONDS_PER_DAY <= end ==> s == SECONDS_PER_DAY
    ensures end <= day * SECONDS_PER_DAY || (day + 1) * SECONDS_PER_DAY <= start ==> s == 0
  {
    var lo := if start > day * SECONDS_PER_DAY then start else day * SECONDS_PER_DAY;
    var hi := if end < (day + 1) * SECONDS_PER_DAY then end else (day + 1) * SECONDS_PER_DAY;
    if hi > lo then hi - lo else 0
  }

  /** Total overlap of `[start, end)` with days `lo` to `hi - 1`. */
  function OverlapSum(start: int, end: int, lo: int, hi: int): int
    decreases hi - lo
  {
    if hi <= lo then 0 else OverlapSum(start, end, lo, hi - 1) + Overlap(start, end, hi - 1)
  }

  /** The days from the start's day to the end's day receive exactly the interval's length. */
  lemma OverlapsCoverInterval(start: int, end: int)
    requires start < end
    ensures OverlapSum(start, end, DayOf(start), DayOf(end) + 1) == end - start
  {
    OverlapSumPrefix(start, end, DayOf(start), DayOf(end) + 1);
  }

  /** Days `DayOf(start)` to `hi - 1` receive the part of the interval before day `hi`. */
  lemma {:induction false} OverlapSumPrefix(start: int, end: int, lo: int, hi: int)
    requires start < end && lo == DayOf(start) && lo < hi <= DayOf(end) + 1
    ensures OverlapSum(start, end, lo, hi) == (if end < hi * SECONDS_PER_DAY then end else hi * SECONDS_PER_DAY) - start
    decreases hi - lo
  {
    if hi - 1 > lo {
      OverlapSumPrefix(start, end, lo, hi - 1);
    }
  }

  /** Usage stored for a (user, day), zero when there is no row. */
  function UsageOf(usage: map<(int, int), nat>, user: int, day: int): nat
  {
    if (user, day) in usage then usage[(user, day)] else 0
  }

  /** `_update_or_create_duration` on the table: a positive amount creates the row or adds to it. */
  function CreditDay(usage: map<(int, int), nat>, user: int, day: int, seconds: int): (r: map<(int, int), nat>)
    ensures seconds <= 0 ==> r == usage
    ensures seconds > 0 ==> r.Keys == usage.Keys + {(user, day)} && UsageOf(r, user, day) == UsageOf(usage, user, day) + seconds
    ensures forall k :: k in usage && k != (user, day) ==> r[k] == usage[k]
  {
    if seconds <= 0 then usage
    else if (user, day) in usage then usage[(user, day) := usage[(user, day)] + seconds]
    else usage[(user, day) := seconds]
  }

  /** `UserDailyUsage._update_or_create_duration`. */
  method UpdateOrCreateDuration(db: Database, user: int, day: int, seconds: int)
    modifies db`usage
    ensures db.usage == CreditDay(old(db.usage), user, day, seconds)
  {
    if seconds <= 0 {
      return;
    }
    if (user, day) in db.usage {
      db.usage := db.usage[(user, day) := db.usage[(user, day)] + seconds];
    } else {
      db.usage := db.usage[(user, day) := seconds];
    }
  }

  /**
   * `after` is `before` with `[start, end)` credited to `user`: each of the user's days
   * gains exactly its overlap, a row appears only for a day that gains something, and
   * every other row is unchanged.
   */
  ghost predicate UsageCredited(before: map<(int, int), nat>, after: map<(int, int), nat>, user: int, start: int, end: int)
  {
    KeysCredited(before, after, user, start, end)
    && DaysCredited(before, after, user, start, end)
    && OthersKept(before, after, user)
  }

  /** Rows appear only for the user's days that gain something. */
  ghost predicate KeysCredited(before: map<(int, int), nat>, after: map<(int, int), nat>, user: int, start: int, end: int)
  {
    forall k :: k in after <==> k in before || (k.0 == user && Overlap(start, end, k.1) > 0)
  }

  /** Each of the user's days gains exactly its overlap with the interval. */
  ghost predicate DaysCredited(before: map<(int, int), nat>, after: map<(int, int), nat>, user: int, start: int, end: int)
  {
    forall d :: UsageOf(after, user, d) == UsageOf(before, user, d) + Overlap(start, end, d)
  }

  /** Other users' rows are kept as they were. */
  ghost predicate OthersKept(before: map<(int, int), nat>, after: map<(int, int), nat>, user: int)
  {
    forall k :: k in before && k.0 != user ==> k in after && after[k] == before[k]
  }

  /** An empty interval credits nothing. */
  lemma NothingCredited(usage: map<(int, int), nat>, user: int, start: int)
    ensures UsageCredited(usage, usage, user, start, start)
  {
    forall d ensures Overlap(start, start, d) == 0 { }
  }

  /** Extending the credited interval within one day adds only to that day. */
  lemma OverlapExtend(start: int, cur: int, next: int, d: int)
    requires start <= cur <= next
    requires DayOf(cur) * SECONDS_PER_DAY <= cur && next <= (DayOf(cur) + 1) * SECONDS_PER_DAY
    ensures Overlap(start, next, d) == Overlap(start, cur, d) + (if d == DayOf(cur) then next - cur else 0)
  {
    if d < DayOf(cur) {
      assert (d + 1) * SECONDS_PER_DAY <= DayOf(cur) * SECONDS_PER_DAY;
    } else if d > DayOf(cur) {
      assert (DayOf(cur) + 1) * SECONDS_PER_DAY <= d * SECONDS_PER_DAY;
    }
  }

  /** The midnight after `cur` lies on the next day and, before the end's day, not after the end. */
  lemma NextMidnight(cur: int, e: int)
    requires DayOf(cur) < DayOf(e)
    ensures DayOf((DayOf(cur) + 1) * SECONDS_PER_DAY) == DayOf(cur) + 1
    ensures cur < (DayOf(cur) + 1) * SECONDS_PER_DAY <= e
  {
  }

  /** Crediting the piece `[cur, next)` of one day extends the credited interval to `next`. */
  lemma CreditExtends(before: map<(int, int), nat>, mid: map<(int, int), nat>, user: int, start: int, cur: int, next: int)
    requires UsageCredited(before, mid, user, start, cur)
    requires start <= cur <= next <= (DayOf(cur) + 1) * SECONDS_PER_DAY
    ensures UsageCredited(before, CreditDay(mid, user, DayOf(cur), next - cur), user, start, next)
  {
    forall d ensures Overlap(start, next, d) == Overlap(start, cur, d) + (if d == DayOf(cur) then next - cur else 0) {
      OverlapExtend(start, cur, next, d);
    }
    KeysExtend(before, mid, user, start, cur, next);
    DaysExtend(before, mid, user, start, cur, next);
  }

  lemma KeysExtend(before: map<(int, int), nat>, mid: map<(int, int), nat>, user: int, start: int, cur: int, next: int)
    requires KeysCredited(before, mid, user, start, cur)
    requires cur <= next
    requires forall d :: Overlap(start, next, d) == Overlap(start, cur, d) + (if d == DayOf(cur) then next - cur else 0)
    ensures KeysCredited(before, CreditDay(mid, user, DayOf(cur), next - cur), user, start, next)
  {
    var after := CreditDay(mid, user, DayOf(cur), next - cur);
    forall k ensures k in after <==> k in before || (k.0 == user && Overlap(start, next, k.1) > 0) {
      assert k in mid <==> k in before || (k.0 == user && Overlap(start, cur, k.1) > 0);
      assert Overlap(start, next, k.1) == Overlap(start, cur, k.1) + (if k.1 == DayOf(cur) then next - cur else 0);
    }
  }

  lemma DaysExtend(before: map<(int, int), nat>, mid: map<(int, int), nat>, user: int, start: int, cur: int, next: int)
    requires DaysCredited(before, mid, user, start, cur)
    requires cur <= next
    requires forall d :: Overlap(start, next, d) == Overlap(start, cur, d) + (if d == DayOf(cur) then next - cur else 0)
    ensures DaysCredited(before, CreditDay(mid, user, DayOf(cur), next - cur), user, start, next)
  {
    var after := CreditDay(mid, user, DayOf(cur), next - cur);
    forall d ensures UsageOf(after, user, d) == UsageOf(before, user, d) + Overlap(start, next, d) {
      assert UsageOf(mid, user, d) == UsageOf(before, user, d) + Overlap(start, cur, d);
      assert Overlap(start, next, d) == Overlap(start, cur, d) + (if d == DayOf(cur) then next - cur else 0);
      if d != DayOf(cur) && next > cur {
        assert (user, d) in after <==> (user, d) in mid;
      }
    }
  }

  /** Credits the piece `[cur, next)` of one day, extending what has been credited since `before`. */
  method CreditPiece(db: Database, ghost before: map<(int, int), nat>, user: int, s: int, cur: int, next: int)
    requires UsageCredited(before, db.usage, user, s, cur)
    requires s <= cur <= next <= (DayOf(cur) + 1) * SECONDS_PER_DAY
    modifies db`usage
    ensures UsageCredited(before, db.usage, user, s, next)
  {
    ghost var mid := db.usage;
    var day := DayOf(cur);
    UpdateOrCreateDuration(db, user, day, next - cur);
    CreditExtends(before, mid, user, s, cur, next);
  }

  /** The loop of `add_duration`: credits each day up to the midnight that starts the end's day. */
  method CreditWholeDays(db: Database, user: int, s: int, e: int) returns (cur: int)
    requires s <= e
    modifies db`usage
    ensures s <= cur <= e && DayOf(cur) == DayOf(e)
    ensures UsageCredited(old(db.usage), db.usage, user, s, cur)
  {
    cur := s;
    NothingCredited(db.usage, user, s);
    while DayOf(cur) < DayOf(e)
      invariant s <= cur <= e
      invariant UsageCredited(old(db.usage), db.usage, user, s, cur)
      decreases DayOf(e) - DayOf(cur)
    {
      var dayEnd := (DayOf(cur) + 1) * SECONDS_PER_DAY;
      NextMidnight(cur, e);
      CreditPiece(db, old(db.usage), user, s, cur, dayEnd);
      cur := dayEnd;
    }
  }

  /**
   * `UserDailyUsage.add_duration`: nothing for a missing endpoint or an empty interval;
   * otherwise the interval is split at midnights and each piece credited to its day.
   */
  method AddDuration(db: Database, user: int, start: Option<int>, end: Option<int>)
    modifies db`usage
    ensures start.None? || end.None? || end.value <= start.value ==> db.usage == old(db.usage)
    ensures start.Some? && end.Some? && start.value < end.value ==>
              UsageCredited(old(db.usage), db.usage, user, start.value, end.value)
  {
    if end.None? || start.None? || end.value <= start.value {
      return;
    }
    var s, e := start.value, end.value;
    var cur := CreditWholeDays(db, user, s, e);
    var remaining := e - cur;
    if remaining > 0 {
      CreditPiece(db, old(db.usage), user, s, cur, e);
    }
  }
}

=== FILE: members_signals.dfy ===
/** The login and logout signal handlers that open and close session logs. */
module MembersSignals {
  import opened Wrappers
  import opened Store
  import opened MembersModels

  /** `handle_user_logged_in`: a new open session starting now. */
  method HandleLogin(db: Database, user: int, now: int)
    modifies db`sessions
    ensures db.sessions == old(db.sessions) + [Session(user, now, None, 0)]
    ensures DurationsCurrent(old(db.sessions)) ==> DurationsCurrent(db.sessions)
  {
    db.sessions := db.sessions + [Session(user, now, None, 0)];
  }

  /** Session `i` is one of the user's open sessions with the latest login time. */
  ghost predicate IsLatestOpen(sessions: seq<Session>, user: int, i: int)
  {
    0 <= i < |sessions| && sessions[i].user == user && sessions[i].logout.None?
    && forall j :: 0 <= j < |sessions| && sessions[j].user == user && sessions[j].logout.None? ==>
         sessions[j].login <= sessions[i].login
  }

  predicate HasOpenSession(sessions: seq<Session>, user: int)
  {
    exists i :: 0 <= i < |sessions| && sessions[i].user == user && sessions[i].logout.None?
  }

  /** The query `filter(user, logout_time is null).order_by('-login_time').first()`. */
  method FindLatestOpenSession(sessions: seq<Session>, user: int) returns (found: Option<nat>)
    ensures found.None? <==> !HasOpenSession(sessions, user)
    ensures found.Some? ==> IsLatestOpen(sessions, user, found.value)
  {
    found := None;
    var k := 0;
    while k < |sessions|
      invariant 0 <= k <= |sessions|
      invariant found.None? <==> !exists i :: 0 <= i < k && sessions[i].user == user && sessions[i].logout.None?
      invariant found.Some? ==> found.value < k && IsLatestOpen(sessions[..k], user, found.value)
    {
      var s := sessions[k];
      if s.user == user && s.logout.None? && (found.None? || s.login > sessions[found.value].login) {
        found := Some(k);
      }
      k := k + 1;
    }
    assert sessions[..k] == sessions;
  }

  /**
   * `handle_user_logged_out`: for an authenticated user with an open session, the latest
   * one is closed now, its duration recorded, and its interval credited to daily usage.
   * `user` is None for an anonymous logout.
   */
  method HandleLogout(db: Database, user: Option<int>, authenticated: bool, now: int) returns (closed: Option<nat>)
    modifies db`sessions, db`usage
    ensures user.None? || !authenticated ==> closed.None?
    ensures user.Some? && authenticated ==> (closed.None? <==> !HasOpenSession(old(db.sessions), user.value))
    ensures closed.None? ==> db.sessions == old(db.sessions) && db.usage == old(db.usage)
    ensures closed.Some? ==>
              var i := closed.value;
              user.Some? && IsLatestOpen(old(db.sessions), user.value, i)
              && db.sessions == old(db.sessions)[i := UpdateDuration(old(db.sessions)[i].(logout := Some(now)), now)]
              && (now > old(db.sessions)[i].login ==>
                    UsageCredited(old(db.usage), db.usage, user.value, old(db.sessions)[i].login, now))
              && (now <= old(db.sessions)[i].login ==> db.usage == old(db.usage))
    ensures DurationsCurrent(old(db.sessions)) ==> DurationsCurrent(db.sessions)
  {
    closed := None;
    if user.None? || !authenticated {
      return;
    }
    var latest := FindLatestOpenSession(db.sessions, user.value);
    if latest.None? {
      return;
    }
    var i := latest.value;
    var session := db.sessions[i].(logout := Some(now));
    session := UpdateDuration(session, now);
    db.sessions := db.sessions[i := session];
    AddDuration(db, user.value, Some(session.login), session.logout);
    closed := latest;
  }
}

=== FILE: migration_0011.dfy ===
/** Data migration 0011: fills the new `pages_read` column of every assignment. */
module PopulatePagesRead {
  import opened Wrappers
  import opened Store

  /** The value the migration writes: the book's page count for a completed loan of a book with pages, else 0. */
  function PagesReadFor(a: Assignment, books: map<int, Book>): (pages: nat)
    ensures a.isCompleted && a.book in books && books[a.book].pageCount != 0 ==> pages == books[a.book].pageCount
    ensures !(a.isCompleted && a.book in books && books[a.book].pageCount != 0) ==> pages == 0
  {
    if a.isCompleted && a.book in books && books[a.book].pageCount != 0 then books[a.book].pageCount else 0
  }

  /** The whole table after the migration: only `pages_read` changes. */
  function Migrated(assignments: map<int, Assignment>, books: map<int, Book>): (r: map<int, Assignment>)
    ensures r.Keys == assignments.Keys
    ensures forall id :: id in r ==> r[id] == assignments[id].(pagesRead := PagesReadFor(assignments[id], books))
  {
    map id | id in assignments :: assignments[id].(pagesRead := PagesReadFor(assignments[id], books))
  }

  /** Running the migration a second time changes nothing. */
  lemma MigrationIdempotent(assignments: map<int, Assignment>, books: map<int, Book>)
    ensures Migrated(Migrated(assignments, books), books) == Migrated(assignments, books)
  {
    var once := Migrated(assignments, books);
    forall id | id in once ensures once[id].(pagesRead := PagesReadFor(once[id], books)) == once[id] {
      assert PagesReadFor(once[id], books) == PagesReadFor(assignments[id], books);
    }
  }

  /** The table while the migration runs: rows in `todo` untouched, all others given their pages. */
  ghost predicate MigratedExcept(original: map<int, Assignment>, current: map<int, Assignment>,
                                 books: map<int, Book>, todo: set<int>)
  {
    && todo <= original.Keys && current.Keys == original.Keys
    && (forall id :: id in original && id !in todo ==> current[id] == original[id].(pagesRead := PagesReadFor(original[id], books)))
    && (forall id :: id in todo ==> current[id] == original[id])
  }

  /** Once no row is left, the table is the migrated one. */
  lemma AllMigrated(original: map<int, Assignment>, current: map<int, Assignment>, books: map<int, Book>)
    requires MigratedExcept(original, current, books, {})
    ensures current == Migrated(original, books)
  {
    var target := Migrated(original, books);
    assert forall id :: id in current ==> current[id] == target[id];
  }

  /** `populate_pages_read`: each assignment in turn gets its `pages_read` and is saved. */
  method PopulatePagesRead(db: Database)
    modifies db`assignments
    ensures db.assignments == Migrated(old(db.assignments), db.books)
  {
    var todo := db.assignments.Keys;
    ghost var original := db.assignments;
    var books := db.books;
    while todo != {}
      invariant MigratedExcept(original, db.assignments, books, todo)
      decreases |todo|
    {
      NonEmptyIds(todo);
      var id :| id in todo;
      var assignment := db.assignments[id];
      var pages: nat;
      if assignment.isCompleted && assignment.book in books && books[assignment.book].pageCount != 0 {
        pages := books[assignment.book].pageCount;
      } else {
        pages := 0;
      }
      db.assignments := db.assignments[id := assignment.(pagesRead := pages)];
      todo := todo - {id};
    }
    AllMigrated(original, db.assignments, books);
  }
}

=== FILE: migration_0014.dfy ===
/** Data migration 0014: fills the score bases and `pages_read` of existing assignments. */
module PopulateAssignmentFields {
  import opened Wrappers
  import opened Store

  /**
   * One row of `populate_assignment_fields`: with a book, a zero base takes the book's
   * score and a completed loan with no pages read takes the book's page count; without a
   * book nothing changes.
   */
  function Populated(a: Assignment, books: map<int, Book>): (r: Assignment)
    ensures a.book !in books ==> r == a
    ensures a.book in books ==>
              && r == a.(readingScoreBase := r.readingScoreBase, quizScoreBase := r.quizScoreBase, pagesRead := r.pagesRead)
              && r.readingScoreBase == (if a.readingScoreBase != 0 then a.readingScoreBase else books[a.book].readingScore)
              && r.quizScoreBase == (if a.quizScoreBase != 0 then a.quizScoreBase else books[a.book].quizScore)
              && r.pagesRead == (if a.isCompleted && books[a.book].pageCount != 0 && a.pagesRead == 0
                                 then books[a.book].pageCount else a.pagesRead)
  {
    if a.book !in books then a
    else
      var book := books[a.book];
      var reading := if a.readingScoreBase != 0 then a.readingScoreBase else book.readingScore;
      var quiz := if a.quizScoreBase != 0 then a.quizScoreBase else book.quizScore;
      var pages := if a.isCompleted && book.pageCount != 0 && a.pagesRead == 0 then book.pageCount else a.pagesRead;
      a.(readingScoreBase := reading, quizScoreBase := quiz, pagesRead := pages)
  }

  /** Populating a populated row changes nothing. */
  lemma PopulatedIdempotent(a: Assignment, books: map<int, Book>)
    ensures Populated(Populated(a, books), books) == Populated(a, books)
  {
  }

  function Migrated(assignments: map<int, Assignment>, books: map<int, Book>): (r: map<int, Assignment>)
    ensures r.Keys == assignments.Keys
    ensures forall id :: id in r ==> r[id] == Populated(assignments[id], books)
  {
    map id | id in assignments :: Populated(assignments[id], books)
  }

  /** Running the migration twice gives the same table as running it once. */
  lemma MigrationIdempotent(assignments: map<int, Assignment>, books: map<int, Book>)
    ensures Migrated(Migrated(assignments, books), books) == Migrated(assignments, books)
  {
    var once := Migrated(assignments, books);
    forall id | id in once ensures Populated(once[id], books) == once[id] {
      PopulatedIdempotent(assignments[id], books);
    }
  }

  /** The body of the migration's loop for one assignment. */
  method PopulateRow(assignment: Assignment, books: map<int, Book>) returns (r: Assignment)
    ensures r == Populated(assignment, books)
  {
    r := assignment;
    if r.book in books {
      var book := books[r.book];
      r := r.(readingScoreBase := if r.readingScoreBase != 0 then r.readingScoreBase else book.readingScore);
      r := r.(quizScoreBase := if r.quizScoreBase != 0 then r.quizScoreBase else book.quizScore);
      if r.isCompleted && book.pageCount != 0 && r.pagesRead == 0 {
        r := r.(pagesRead := book.pageCount);
      }
    }
  }

  /** The table while the migration runs: rows in `todo` untouched, all others populated. */
  ghost predicate PopulatedExcept(original: map<int, Assignment>, current: map<int, Assignment>,
                                  books: map<int, Book>, todo: set<int>)
  {
    && todo <= original.Keys && current.Keys == original.Keys
    && (forall id :: id in original && id !in todo ==> current[id] == Populated(original[id], books))
    && (forall id :: id in todo ==> current[id] == original[id])
  }

  /** Once no row is left, the table is the migrated one. */
  lemma AllPopulated(original: map<int, Assignment>, current: map<int, Assignment>, books: map<int, Book>)
    requires PopulatedExcept(original, current, books, {})
    ensures current == Migrated(original, books)
  {
    var target := Migrated(original, books);
    assert forall id :: id in current ==> current[id] == target[id];
  }

  /** `populate_assignment_fields`: each assignment in turn is populated and saved. */
  method PopulateAssignmentFields(db: Database)
    modifies db`assignments
    ensures db.assignments == Migrated(old(db.assignments), db.books)
  {
    var todo := db.assignments.Keys;
    ghost var original := db.assignments;
    var books := db.books;
    while todo != {}
      invariant PopulatedExcept(original, db.assignments, books, todo)
      decreases |todo|
    {
      NonEmptyIds(todo);
      var id :| id in todo;
      var assignment := PopulateRow(db.assignments[id], books);
      db.assignments := db.assignments[id := assignment];
      todo := todo - {id};
    }
    AllPopulated(original, db.assignments, books);
  }
}

=== FILE: quiz_forms.dfy ===
/**
 * The reading-sessions quiz form: one field per question, named `question_<id>`, and the
 * percentage score computed from the submitted answers.
 */
module QuizForms {
  import opened Wrappers
  import opened Decimal
  import opened Store

  datatype QuestionType = MultipleChoice | TrueFalse | ShortAnswer

  /** A QuizQuestion row; the model validates `points >= 1`. */
  datatype Question = Question(id: nat, text: string, qtype: QuestionType, points: int)

  /** A QuizChoice row. */
  datatype Choice = Choice(id: nat, text: string, isCorrect: bool)

  /** A radio choice list of (value, label) pairs, or a free-text field. */
  datatype FieldKind = ChoiceField(options: seq<(string, string)>) | CharField

  /** A required form field. */
  datatype FormField = FormField(name: string, caption: string, kind: FieldKind)

  const PREFIX: string := "question_"

  /** The name of a question's field. */
  function FieldName(id: nat): (name: string)
    ensures |name| > |PREFIX| && name[..|PREFIX|] == PREFIX
    ensures AllDigits(name[|PREFIX|..])
  {
    assert (PREFIX + NatToString(id))[|PREFIX|..] == NatToString(id);
    PREFIX + NatToString(id)
  }

  /**
   * The question id `calculate_score` reads out of a field name: None for a name without
   * the prefix, which the loop skips.
   */
  function QuestionIdOf(name: string): (id: Option<nat>)
    requires |name| >= |PREFIX| && name[..|PREFIX|] == PREFIX ==> |name| > |PREFIX| && AllDigits(name[|PREFIX|..])
    ensures id.None? <==> !(|name| >= |PREFIX| && name[..|PREFIX|] == PREFIX)
  {
    if |name| >= |PREFIX| && name[..|PREFIX|] == PREFIX then Some(ParseDigits(name[|PREFIX|..])) else None
  }

  /** Every field the form builds is read back as its own question. */
  lemma FieldNameRoundTrip(id: nat)
    ensures QuestionIdOf(FieldName(id)) == Some(id)
  {
    var name := FieldName(id);
    assert name[|PREFIX|..] == NatToString(id);
    ParseNatToString(id);
  }

  /** Distinct questions get distinct field names. */
  lemma FieldNamesDistinct(a: nat, b: nat)
    ensures a != b ==> FieldName(a) != FieldName(b)
  {
    FieldNameRoundTrip(a);
    FieldNameRoundTrip(b);
  }

  /** The two labelled options of a true/false question. */
  const TRUE_FALSE_OPTIONS: seq<(string, string)> :=
    [("True", "\U{062F}\U{0631}\U{0633}\U{062A}"), ("False", "\U{063A}\U{0644}\U{0637}")]

  function ChoiceOptions(choices: seq<Choice>): (options: seq<(string, string)>)
    ensures |options| == |choices|
    ensures forall i :: 0 <= i < |choices| ==> options[i] == (NatToString(choices[i].id), choices[i].text)
  {
    if choices == [] then [] else ChoiceOptions(choices[..|choices| - 1]) + [(NatToString(choices[|choices| - 1].id), choices[|choices| - 1].text)]
  }

  /** The field `__init__` adds for one question; `choicesOf` lists each question's choices. */
  function FieldFor(q: Question, choicesOf: map<nat, seq<Choice>>): FormField
  {
    var kind := match q.qtype
      case MultipleChoice => ChoiceField(ChoiceOptions(if q.id in choicesOf then choicesOf[q.id] else []))
      case TrueFalse => ChoiceField(TRUE_FALSE_OPTIONS)
      case ShortAnswer => CharField;
    FormField(FieldName(q.id), q.text, kind)
  }

  /**
   * `QuizForm.__init__`: without a quiz the form has no fields; otherwise one field per
   * question, in question order, named after the question and labelled with its text.
   */
  method BuildQuizFields(quiz: Option<seq<Question>>, choicesOf: map<nat, seq<Choice>>) returns (fields: seq<FormField>)
    ensures quiz.None? ==> fields == []
    ensures quiz.Some? ==> |fields| == |quiz.value|
    ensures quiz.Some? ==> forall i :: 0 <= i < |fields| ==>
              fields[i].name == FieldName(quiz.value[i].id) && fields[i].caption == quiz.value[i].text
              && (fields[i].kind.CharField? <==> quiz.value[i].qtype == ShortAnswer)
              && (quiz.value[i].qtype == TrueFalse ==> fields[i].kind == ChoiceField(TRUE_FALSE_OPTIONS))
              && (quiz.value[i].qtype == MultipleChoice && quiz.value[i].id in choicesOf ==>
                    fields[i].kind == ChoiceField(ChoiceOptions(choicesOf[quiz.value[i].id])))
    ensures quiz.Some? ==> forall i, j :: 0 <= i < j < |fields| && quiz.value[i].id != quiz.value[j].id ==>
              fields[i].name != fields[j].name
  {
    fields := [];
    if quiz.Some? {
      var questions := quiz.value;
      var k := 0;
      while k < |questions|
        invariant 0 <= k <= |questions|
        invariant |fields| == k
        invariant forall i :: 0 <= i < k ==> fields[i] == FieldFor(questions[i], choicesOf)
      {
        var q := questions[k];
        var kind: FieldKind;
        if q.qtype == MultipleChoice {
          var choices := if q.id in choicesOf then choicesOf[q.id] else [];
          kind := ChoiceField(ChoiceOptions(choices));
        } else if q.qtype == TrueFalse {
          kind := ChoiceField(TRUE_FALSE_OPTIONS);
        } else {
          kind := CharField;
        }
        fields := fields + [FormField(FieldName(q.id), q.text, kind)];
        k := k + 1;
      }
      forall i, j | 0 <= i < j < |fields| && questions[i].id != questions[j].id
        ensures fields[i].name != fields[j].name
      {
        FieldNamesDistinct(questions[i].id, questions[j].id);
      }
    }
  }

  /** Every `question_` key of the cleaned data carries a decimal id, as the form's own fields do. */
  predicate WellNamed(cleaned: seq<(string, string)>)
  {
    forall k :: 0 <= k < |cleaned| ==>
      (|cleaned[k].0| >= |PREFIX| && cleaned[k].0[..|PREFIX|] == PREFIX ==>
         |cleaned[k].0| > |PREFIX| && AllDigits(cleaned[k].0[|PREFIX|..]))
  }

  /** The model-level validator of question points. */
  predicate PointsValid(questions: map<nat, Question>)
  {
    forall id :: id in questions ==> questions[id].points >= 1
  }

  /** The points one answer adds to `total_possible`: a missing question adds nothing. */
  function EntryPossible(name: string, questions: map<nat, Question>): (p: int)
    requires |name| >= |PREFIX| && name[..|PREFIX|] == PREFIX ==> |name| > |PREFIX| && AllDigits(name[|PREFIX|..])
    ensures QuestionIdOf(name).None? || QuestionIdOf(name).value !in questions ==> p == 0
    ensures QuestionIdOf(name).Some? && QuestionIdOf(name).value in questions ==> p == questions[QuestionIdOf(name).value].points
  {
    var id := QuestionIdOf(name);
    if id.Some? && id.value in questions then questions[id.value].points else 0
  }

  /**
   * The points one answer adds to `total_score`: a multiple-choice answer earns only when the
   * selected choice exists and is correct; true/false and short answers always earn.
   */
  function EntryEarned(name: string, value: string, questions: map<nat, Question>, choices: map<nat, Choice>): (e: int)
    requires |name| >= |PREFIX| && name[..|PREFIX|] == PREFIX ==> |name| > |PREFIX| && AllDigits(name[|PREFIX|..])
    ensures e == 0 || e == EntryPossible(name, questions)
    ensures EntryPossible(name, questions) == 0 ==> e == 0
    ensures var id := QuestionIdOf(name);
            id.Some? && id.value in questions ==>
              (e == questions[id.value].points <==>
                 questions[id.value].qtype != MultipleChoice
                 || (|value| > 0 && AllDigits(value) && ParseDigits(value) in choices && choices[ParseDigits(value)].isCorrect)
                 || questions[id.value].points == 0)
  {
    var id := QuestionIdOf(name);
    if id.None? || id.value !in questions then 0
    else
      var q := questions[id.value];
      match q.qtype
      case MultipleChoice =>
        if |value| > 0 && AllDigits(value) && ParseDigits(value) in choices && choices[ParseDigits(value)].isCorrect
        then q.points else 0
      case TrueFalse => q.points
      case ShortAnswer => q.points
  }

  /** `total_possible` over the cleaned data. */
  function Possible(cleaned: seq<(string, string)>, questions: map<nat, Question>): int
    requires WellNamed(cleaned)
  {
    if cleaned == [] then 0
    else Possible(cleaned[..|cleaned| - 1], questions) + EntryPossible(cleaned[|cleaned| - 1].0, questions)
  }

  /** `total_score` over the cleaned data. */
  function Earned(cleaned: seq<(string, string)>, questions: map<nat, Question>, choices: map<nat, Choice>): int
    requires WellNamed(cleaned)
  {
    if cleaned == [] then 0
    else Earned(cleaned[..|cleaned| - 1], questions, choices)
         + EntryEarned(cleaned[|cleaned| - 1].0, cleaned[|cleaned| - 1].1, questions, choices)
  }

  /** With valid points nothing is earned beyond what is possible, and neither is negative. */
  lemma {:induction false} EarnedWithinPossible(cleaned: seq<(string, string)>, questions: map<nat, Question>, choices: map<nat, Choice>)
    requires WellNamed(cleaned) && PointsValid(questions)
    ensures 0 <= Earned(cleaned, questions, choices) <= Possible(cleaned, questions)
  {
    if cleaned != [] {
      var init := cleaned[..|cleaned| - 1];
      assert WellNamed(init) by {
        forall k | 0 <= k < |init| ensures init[k] == cleaned[k] { }
      }
      EarnedWithinPossible(init, questions, choices);
      var name := cleaned[|cleaned| - 1].0;
      var id := QuestionIdOf(name);
      if id.Some? && id.value in questions {
        assert questions[id.value].points >= 1;
      }
    }
  }

  /** An answer to a question that no longer exists changes neither total. */
  lemma MissingQuestionAddsNothing(cleaned: seq<(string, string)>, id: nat, value: string,
                                   questions: map<nat, Question>, choices: map<nat, Choice>)
    requires WellNamed(cleaned) && id !in questions
    ensures WellNamed(cleaned + [(FieldName(id), value)])
    ensures Possible(cleaned + [(FieldName(id), value)], questions) == Possible(cleaned, questions)
    ensures Earned(cleaned + [(FieldName(id), value)], questions, choices) == Earned(cleaned, questions, choices)
  {
    var c := cleaned + [(FieldName(id), value)];
    FieldNameRoundTrip(id);
    assert c[..|c| - 1] == cleaned;
  }

  /** `calculate_score`'s result from the two totals. */
  function Percentage(earned: int, possible: int): int
  {
    if possible > 0 then TruncDiv(earned * 100, possible) else 0
  }

  /** A percentage of valid totals lies in 0..100. */
  lemma PercentageBounds(earned: int, possible: int)
    requires 0 <= earned <= possible
    ensures 0 <= Percentage(earned, possible) <= 100
  {
    if possible > 0 {
      var q := TruncDiv(earned * 100, possible);
      assert q * possible <= possible * 100;
      assert (100 - q) * possible >= 0;
    }
  }

  /**
   * `QuizForm.calculate_score`: walks the cleaned answers, adding each existing question's
   * points to the possible total and, when answered correctly, to the score.
   */
  method CalculateQuizScore(cleaned: seq<(string, string)>, questions: map<nat, Question>, choices: map<nat, Choice>)
    returns (percent: int)
    requires WellNamed(cleaned)
    ensures percent == Percentage(Earned(cleaned, questions, choices), Possible(cleaned, questions))
    ensures PointsValid(questions) ==> 0 <= percent <= 100
  {
    var totalScore := 0;
    var totalPossible := 0;
    var k := 0;
    while k < |cleaned|
      invariant 0 <= k <= |cleaned|
      invariant WellNamed(cleaned[..k])
      invariant totalPossible == Possible(cleaned[..k], questions)
      invariant totalScore == Earned(cleaned[..k], questions, choices)
    {
      var (name, value) := cleaned[k];
      if |name| >= |PREFIX| && name[..|PREFIX|] == PREFIX {
        var questionId := ParseDigits(name[|PREFIX|..]);
        if questionId in questions {
          var q := questions[questionId];
          totalPossible := totalPossible + q.points;
          if q.qtype == MultipleChoice {
            if |value| > 0 && AllDigits(value) && ParseDigits(value) in choices {
              if choices[ParseDigits(value)].isCorrect {
                totalScore := totalScore + q.points;
              }
            }
          } else if q.qtype == TrueFalse {
            totalScore := totalScore + q.points;
          } else {
            totalScore := totalScore + q.points;
          }
        }
      }
      assert cleaned[..k + 1][..k] == cleaned[..k];
      k := k + 1;
    }
    assert cleaned[..k] == cleaned;
    if totalPossible > 0 {
      percent := TruncDiv(totalScore * 100, totalPossible);
    } else {
      percent := 0;
    }
    if PointsValid(questions) {
      EarnedWithinPossible(cleaned, questions, choices);
      PercentageBounds(totalScore, totalPossible);
    }
  }
}

=== FILE: reading_sessions_models.dfy ===
/**
 * The older hand-out/return flow of the reading-sessions app: a hand-out's due date,
 * the return's 10-points-per-day penalty and the credit it adds to the member on
 * every save, and the rescaling of a quiz attempt's score.
 */
module ReadingSessionsModels {
  import opened Wrappers
  import opened Store
  import BooksModels
  import BooksAdmin

  /**
   * A BookHandout row. The hand-out date is filled in by the database when the row is
   * first written (`auto_now_add`), so an unsaved row holds `None` there.
   */
  datatype Handout = Handout(book: int, member: int, handedOutDate: Option<int>, dueDate: Option<int>)

  /** A BookReturn row (its hand-out is passed beside it); `returnedDate` is `None` until the first write. */
  datatype BookReturn = BookReturn(returnedDate: Option<int>, quizScore: int, lateDays: int, finalReadingScore: int,
                                   totalScore: int)

  /**
   * `BookHandout.save` as written: a missing due date is the hand-out date plus the book's
   * reading days, computed before the hand-out date exists on a new row. `None` stands for
   * the `TypeError` that adding days to a missing date raises.
   */
  function HandoutDueDateAsWritten(h: Handout, book: Book): (due: Option<int>)
    ensures due.None? <==> h.dueDate.None? && h.handedOutDate.None?
    ensures h.dueDate.Some? ==> due == h.dueDate
    ensures h.dueDate.None? && due.Some? ==> DayOf(due.value - h.handedOutDate.value) == book.readingDays
                                             && (due.value - h.handedOutDate.value) % SECONDS_PER_DAY == 0
  {
    if h.dueDate.Some? then h.dueDate
    else if h.handedOutDate.Some? then Some(h.handedOutDate.value + book.readingDays * SECONDS_PER_DAY)
    else None
  }

  /** A hand-out created from a form that sets only the member and notes cannot be saved. */
  lemma NewHandoutWithoutDueDateRaises(book: Book, member: int)
    ensures HandoutDueDateAsWritten(Handout(book.id, member, None, None), book).None?
  {
  }

  /**
   * `BookHandout.save` as intended: the hand-out date of a new row is the moment of the
   * save, and a missing due date is that date plus the book's reading days. It agrees
   * with the code as written wherever that code completes.
   */
  function HandoutDueDate(h: Handout, book: Book, now: int): (due: int)
    ensures h.dueDate.Some? ==> due == h.dueDate.value
    ensures h.dueDate.None? ==> DayOf(due - h.handedOutDate.GetOr(now)) == book.readingDays
                                && (due - h.handedOutDate.GetOr(now)) % SECONDS_PER_DAY == 0
    ensures HandoutDueDateAsWritten(h, book).Some? ==> HandoutDueDateAsWritten(h, book) == Some(due)
  {
    if h.dueDate.Some? then h.dueDate.value else h.handedOutDate.GetOr(now) + book.readingDays * SECONDS_PER_DAY
  }

  /** The quiz score's validators: 0 to 100 inclusive. */
  predicate QuizScoreValid(quizScore: int)
    ensures QuizScoreValid(quizScore) <==> quizScore >= 0 && quizScore <= 100
  {
    0 <= quizScore <= 100
  }

  /** `final_reading_score`: 10 points off per late day, never below zero. */
  function FinalReadingScore(readingScore: int, lateDays: int): (r: int)
    ensures r >= 0 && r >= readingScore - 10 * lateDays
    ensures r == 0 || r == readingScore - 10 * lateDays
  {
    if 0 > readingScore - lateDays * 10 then 0 else readingScore - lateDays * 10
  }

  /** For a book with a non-negative reading score the return flow and `calculate_late_penalty` agree. */
  lemma ReturnAgreesWithLoanPenalty(returned: int, due: int, readingScore: int)
    requires readingScore >= 0
    ensures FinalReadingScore(readingScore, BooksAdmin.LateDays(Some(returned), Some(due)))
            == BooksModels.LatePenalty(Some(returned), due, readingScore).readingScore
  {
    if returned > due {
      assert BooksAdmin.LateDays(Some(returned), Some(due)) == DayOf(returned - due);
    }
  }

  /**
   * The fields `BookReturn.save` computes before writing the row, as intended: the return
   * date of a new row is the moment of the save.
   */
  function ScoredReturn(r: BookReturn, due: int, book: Book, now: int): (s: BookReturn)
    ensures s.returnedDate == Some(r.returnedDate.GetOr(now)) && s.quizScore == r.quizScore
    ensures var returned := s.returnedDate.value;
            && s.lateDays >= 0 && (returned <= due ==> s.lateDays == 0)
            && (returned > due ==> s.lateDays * SECONDS_PER_DAY <= returned - due < (s.lateDays + 1) * SECONDS_PER_DAY)
    ensures s.finalReadingScore == FinalReadingScore(book.readingScore, s.lateDays)
    ensures s.totalScore == s.finalReadingScore + s.quizScore
    ensures QuizScoreValid(r.quizScore) && book.readingScore >= 0 ==> 0 <= s.totalScore <= book.readingScore + 100
  {
    var returned := r.returnedDate.GetOr(now);
    var late := BooksAdmin.LateDays(Some(returned), Some(due));
    var final := FinalReadingScore(book.readingScore, late);
    r.(returnedDate := Some(returned), lateDays := late, finalReadingScore := final, totalScore := final + r.quizScore)
  }

  /** Scoring a return that was already scored gives the same row again. */
  lemma RescoringIsStable(r: BookReturn, due: int, book: Book, now: int, later: int)
    ensures ScoredReturn(ScoredReturn(r, due, book, now), due, book, later) == ScoredReturn(r, due, book, now)
  {
  }

  /**
   * `BookReturn.save` as written: the return date is compared with the due date before the
   * database fills it in, so a new return raises (`None`); a stored one is scored.
   */
  function ScoredReturnAsWritten(r: BookReturn, due: int, book: Book): (s: Option<BookReturn>)
    ensures s.None? <==> r.returnedDate.None?
    ensures s.Some? ==> s.value == ScoredReturn(r, due, book, r.returnedDate.value)
  {
    if r.returnedDate.None? then None else Some(ScoredReturn(r, due, book, r.returnedDate.value))
  }

  /** The return form never sets the return date, so every new return raises and credits nobody. */
  lemma NewReturnRaises(quizScore: int, due: int, book: Book)
    ensures ScoredReturnAsWritten(BookReturn(None, quizScore, 0, 0, 0), due, book).None?
  {
  }

  /**
   * `BookReturn.save` as written: a new return raises before anything is written (`None`);
   * a stored one is scored and its total is added to the member's total.
   */
  method SaveBookReturnAsWritten(db: Database, r: BookReturn, h: Handout) returns (saved: Option<BookReturn>)
    requires h.dueDate.Some? && h.book in db.books && h.member in db.members
    modifies db`members
    ensures saved == ScoredReturnAsWritten(r, h.dueDate.value, db.books[h.book])
    ensures saved.None? ==> db.members == old(db.members)
    ensures saved.Some? ==>
              db.members == old(db.members)[h.member := old(db.members[h.member]).(totalScore := old(db.members[h.member].totalScore) + saved.value.totalScore)]
  {
    if r.returnedDate.None? {
      return None;
    }
    var s := SaveBookReturn(db, r, h, r.returnedDate.value);
    saved := Some(s);
  }

  /**
   * `BookReturn.save` as intended: a new return is dated `now`; the return is scored and
   * its total added to the member's total, on every save.
   */
  method SaveBookReturn(db: Database, r: BookReturn, h: Handout, now: int) returns (saved: BookReturn)
    requires h.dueDate.Some? && h.book in db.books && h.member in db.members
    modifies db`members
    ensures saved == ScoredReturn(r, h.dueDate.value, db.books[h.book], now)
    ensures db.members == old(db.members)[h.member := old(db.members[h.member]).(totalScore := old(db.members[h.member].totalScore) + saved.totalScore)]
  {
    var due := h.dueDate.value;
    var returned := if r.returnedDate.Some? then r.returnedDate.value else now;
    var late := 0;
    if returned > due {
      late := DayOf(returned - due);
    }
    var penalty := late * 10;
    var final := if 0 > db.books[h.book].readingScore - penalty then 0 else db.books[h.book].readingScore - penalty;
    saved := r.(returnedDate := Some(returned), lateDays := late, finalReadingScore := final, totalScore := final + r.quizScore);
    var m := db.members[h.member];
    db.members := db.members[h.member := m.(totalScore := m.totalScore + saved.totalScore)];
  }

  /** Nothing guards against a second save: saving the same return twice credits the member twice. */
  method SaveTwice(db: Database, r: BookReturn, h: Handout, now: int, later: int) returns (saved: BookReturn)
    requires h.dueDate.Some? && h.book in db.books && h.member in db.members
    modifies db`members
    ensures h.member in db.members
    ensures db.members[h.member].totalScore == old(db.members[h.member].totalScore) + 2 * saved.totalScore
  {
    saved := SaveBookReturn(db, r, h, now);
    var again := SaveBookReturn(db, saved, h, later);
    RescoringIsStable(r, h.dueDate.value, db.books[h.book], now, later);
    assert again == saved;
  }

  /** Sum of the quiz's question points. */
  function SumPoints(points: seq<int>): int
  {
    if points == [] then 0 else SumPoints(points[..|points| - 1]) + points[|points| - 1]
  }

  /** A quiz attempt; `calculate_score` overwrites its score. */
  class QuizAttempt {
    var score: int

    constructor (score: int)
      ensures this.score == score
    {
      this.score := score;
    }

    /**
     * `QuizAttempt.calculate_score`: with positive total points the raw score is rescaled
     * to the quiz's maximum (`int(score / total * max_score)`); otherwise it is kept.
     */
    method CalculateScore(points: seq<int>, maxScore: int) returns (result: int)
      modifies this
      ensures SumPoints(points) > 0 ==> score == TruncDiv(old(score) * maxScore, SumPoints(points))
      ensures SumPoints(points) <= 0 ==> score == old(score)
      ensures result == score
      ensures SumPoints(points) > 0 && 0 <= old(score) <= SumPoints(points) && maxScore >= 0 ==> 0 <= score <= maxScore
    {
      var total := SumPoints(points);
      if total > 0 {
        var scaled := TruncDiv(score * maxScore, total);
        if 0 <= score <= total && maxScore >= 0 {
          RescaleWithinMax(score, total, maxScore);
        }
        score := scaled;
      }
      result := score;
    }
  }

  /** Rescaling a score between 0 and the total lands between 0 and the maximum. */
  lemma RescaleWithinMax(score: int, total: int, maxScore: int)
    requires total > 0 && 0 <= score <= total && maxScore >= 0
    ensures 0 <= TruncDiv(score * maxScore, total) <= maxScore
  {
    var product := score * maxScore;
    assert 0 <= product <= total * maxScore by {
      assert (total - score) * maxScore >= 0;
    }
    var q := TruncDiv(product, total);
    assert (maxScore - q) * total == maxScore * total - q * total;
    FactorSign(maxScore - q, total);
  }

  /** A product with a positive factor has the sign of the other factor. */
  lemma FactorSign(x: int, t: int)
    requires t > 0 && x * t >= 0
    ensures x >= 0
  {
  }
}

=== FILE: set_stage1_pages.dfy ===
/**
 * The `set_stage1_pages` management command: writes each listed title's page count to the
 * first book with that title and reports what it changed and which titles it could not find.
 */
module SetStage1Pages {
  import opened Wrappers
  import opened Decimal
  import opened Store

  /** `order` lists every book id once, in the order the book query returns them. */
  predicate QueryOrder(books: map<int, Book>, order: seq<int>)
  {
    (forall i :: 0 <= i < |order| ==> order[i] in books)
    && (forall id :: id in books ==> id in order)
    && (forall i, j :: 0 <= i < j < |order| ==> order[i] != order[j])
  }

  /** The mapping's titles are distinct, as the keys of a dictionary are. */
  predicate DistinctTitles(mapping: seq<(string, nat)>)
  {
    forall i, j :: 0 <= i < j < |mapping| ==> mapping[i].0 != mapping[j].0
  }

  /** `Book.objects.filter(title=title).first()`. */
  function FirstWithTitle(books: map<int, Book>, order: seq<int>, title: string): (r: Option<int>)
    requires forall i :: 0 <= i < |order| ==> order[i] in books
    ensures r.Some? ==> r.value in books && books[r.value].title == title
    ensures r.None? <==> forall i :: 0 <= i < |order| ==> books[order[i]].title != title
  {
    if order == [] then None
    else if books[order[0]].title == title then Some(order[0])
    else FirstWithTitle(books, order[1..], title)
  }

  /** Same ids and the same title for every book. */
  predicate SameTitles(a: map<int, Book>, b: map<int, Book>)
  {
    a.Keys == b.Keys && forall id :: id in a ==> a[id].title == b[id].title
  }

  /** The first book with a title depends on the titles alone. */
  lemma {:induction false} FirstWithTitleByTitles(a: map<int, Book>, b: map<int, Book>, order: seq<int>, title: string)
    requires SameTitles(a, b) && forall i :: 0 <= i < |order| ==> order[i] in a
    ensures FirstWithTitle(a, order, title) == FirstWithTitle(b, order, title)
  {
    if order != [] {
      var head := order[0];
      assert head in a && a.Keys == b.Keys;
      assert a[head].title == b[head].title;
      FirstWithTitleByTitles(a, b, order[1..], title);
    }
  }

  /** The state the command has built after some entries: the books, the missing titles and the update count. */
  datatype Progress = Progress(books: map<int, Book>, missing: seq<string>, updated: nat)

  /** The command after the given entries of the mapping, in mapping order. */
  function Run(books: map<int, Book>, order: seq<int>, mapping: seq<(string, nat)>): (p: Progress)
    requires forall i :: 0 <= i < |order| ==> order[i] in books
    ensures SameTitles(books, p.books)
    ensures forall id :: id in books ==> p.books[id] == books[id].(pageCount := p.books[id].pageCount)
    ensures p.updated <= |mapping| && |p.missing| <= |mapping|
  {
    if mapping == [] then Progress(books, [], 0)
    else RunNext(Run(books, order, mapping[..|mapping| - 1]), order, mapping[|mapping| - 1])
  }

  /** One entry of the command: a missing title is recorded; otherwise a differing page count is written and counted. */
  function RunNext(prev: Progress, order: seq<int>, entry: (string, nat)): (p: Progress)
    requires forall i :: 0 <= i < |order| ==> order[i] in prev.books
    ensures SameTitles(prev.books, p.books)
    ensures forall id :: id in prev.books ==> p.books[id] == prev.books[id].(pageCount := p.books[id].pageCount)
    ensures p.updated <= prev.updated + 1 && |p.missing| <= |prev.missing| + 1
  {
    var (title, pages) := entry;
    var first := FirstWithTitle(prev.books, order, title);
    if first.None? then prev.(missing := prev.missing + [title])
    else if prev.books[first.value].pageCount != pages then
      Progress(prev.books[first.value := prev.books[first.value].(pageCount := pages)], prev.missing, prev.updated + 1)
    else prev
  }

  /** A book that is not the first book of any listed title keeps its page count. */
  lemma {:induction false} RunKeepsUnlisted(books: map<int, Book>, order: seq<int>, mapping: seq<(string, nat)>, id: int)
    requires forall i :: 0 <= i < |order| ==> order[i] in books
    requires id in books
    requires forall j :: 0 <= j < |mapping| ==> FirstWithTitle(books, order, mapping[j].0) != Some(id)
    ensures Run(books, order, mapping).books[id] == books[id]
  {
    if mapping != [] {
      var init := mapping[..|mapping| - 1];
      assert forall j :: 0 <= j < |init| ==> init[j] == mapping[j];
      RunKeepsUnlisted(books, order, init, id);
      var prev := Run(books, order, init);
      FirstWithTitleByTitles(books, prev.books, order, mapping[|mapping| - 1].0);
    }
  }

  /** The ids whose row differs between two tables. */
  function ChangedBooks(before: map<int, Book>, after: map<int, Book>): set<int>
  {
    set id | id in before && id in after && before[id] != after[id]
  }

  /** The first book of a title is not the first book of any other title. */
  lemma OnlyFirstOfItsTitle(books: map<int, Book>, order: seq<int>, titles: seq<(string, nat)>, title: string, f: int)
    requires forall i :: 0 <= i < |order| ==> order[i] in books
    requires FirstWithTitle(books, order, title) == Some(f)
    requires forall j :: 0 <= j < |titles| ==> titles[j].0 != title
    ensures forall j :: 0 <= j < |titles| ==> FirstWithTitle(books, order, titles[j].0) != Some(f)
  {
  }

  /** Rewriting a row that still equals the original adds exactly that id to the changed ones. */
  lemma ChangedBooksGrow(before: map<int, Book>, current: map<int, Book>, f: int, row: Book)
    requires f in before && f in current && current[f] == before[f] && row != before[f]
    ensures f !in ChangedBooks(before, current)
    ensures ChangedBooks(before, current[f := row]) == ChangedBooks(before, current) + {f}
  {
  }

  /** With distinct titles, the update count is the number of books whose row the run changed. */
  lemma {:induction false} RunCountsChanges(books: map<int, Book>, order: seq<int>, mapping: seq<(string, nat)>)
    requires forall i :: 0 <= i < |order| ==> order[i] in books
    requires DistinctTitles(mapping)
    ensures Run(books, order, mapping).updated == |ChangedBooks(books, Run(books, order, mapping).books)|
  {
    if mapping == [] {
      assert ChangedBooks(books, books) == {};
    } else {
      var init := mapping[..|mapping| - 1];
      var title := mapping[|mapping| - 1].0;
      assert DistinctTitles(init);
      assert forall j :: 0 <= j < |init| ==> init[j].0 != title;
      RunCountsChanges(books, order, init);
      var prev := Run(books, order, init);
      FirstWithTitleByTitles(books, prev.books, order, title);
      var first := FirstWithTitle(books, order, title);
      if first.Some? {
        OnlyFirstOfItsTitle(books, order, init, title, first.value);
        RunKeepsUnlisted(books, order, init, first.value);
      }
      NextCountsChanges(books, prev, order, mapping[|mapping| - 1]);
    }
  }

  /** One entry keeps the count equal to the number of changed rows when the entry's first book is still untouched. */
  lemma NextCountsChanges(books: map<int, Book>, prev: Progress, order: seq<int>, entry: (string, nat))
    requires forall i :: 0 <= i < |order| ==> order[i] in prev.books
    requires SameTitles(books, prev.books)
    requires prev.updated == |ChangedBooks(books, prev.books)|
    requires var first := FirstWithTitle(prev.books, order, entry.0);
             first.Some? ==> prev.books[first.value] == books[first.value]
    ensures RunNext(prev, order, entry).updated == |ChangedBooks(books, RunNext(prev, order, entry).books)|
  {
    var first := FirstWithTitle(prev.books, order, entry.0);
    if first.Some? && prev.books[first.value].pageCount != entry.1 {
      ChangedBooksGrow(books, prev.books, first.value, prev.books[first.value].(pageCount := entry.1));
    }
  }

  /** Titles of the mapping that no book has, in mapping order. */
  function MissingTitles(books: map<int, Book>, order: seq<int>, mapping: seq<(string, nat)>): (missing: seq<string>)
    requires forall i :: 0 <= i < |order| ==> order[i] in books
    ensures forall t :: t in missing ==> FirstWithTitle(books, order, t).None?
  {
    if mapping == [] then []
    else
      var title := mapping[|mapping| - 1].0;
      MissingTitles(books, order, mapping[..|mapping| - 1])
      + (if FirstWithTitle(books, order, title).None? then [title] else [])
  }

  /** The command's missing list is exactly the titles no book had. */
  lemma {:induction false} RunMissing(books: map<int, Book>, order: seq<int>, mapping: seq<(string, nat)>)
    requires forall i :: 0 <= i < |order| ==> order[i] in books
    ensures Run(books, order, mapping).missing == MissingTitles(books, order, mapping)
  {
    if mapping != [] {
      RunMissing(books, order, mapping[..|mapping| - 1]);
      var prev := Run(books, order, mapping[..|mapping| - 1]);
      FirstWithTitleByTitles(books, prev.books, order, mapping[|mapping| - 1].0);
    }
  }

  /** Every listed title that has a book holds the listed page count on its first book. */
  predicate Settled(books: map<int, Book>, order: seq<int>, mapping: seq<(string, nat)>)
    requires forall i :: 0 <= i < |order| ==> order[i] in books
  {
    forall j :: 0 <= j < |mapping| ==>
      var first := FirstWithTitle(books, order, mapping[j].0);
      first.Some? ==> books[first.value].pageCount == mapping[j].1
  }

  /** After a run with distinct titles, every entry's first book holds its page count. */
  lemma {:induction false} RunSettles(books: map<int, Book>, order: seq<int>, mapping: seq<(string, nat)>)
    requires forall i :: 0 <= i < |order| ==> order[i] in books
    requires DistinctTitles(mapping)
    ensures Settled(Run(books, order, mapping).books, order, mapping)
  {
    if mapping != [] {
      var init := mapping[..|mapping| - 1];
      assert DistinctTitles(init);
      RunSettles(books, order, init);
      var prev := Run(books, order, init);
      var after := Run(books, order, mapping).books;
      FirstWithTitleByTitles(prev.books, after, order, mapping[|mapping| - 1].0);
      forall j | 0 <= j < |mapping|
        ensures var first := FirstWithTitle(after, order, mapping[j].0);
                first.Some? ==> after[first.value].pageCount == mapping[j].1
      {
        FirstWithTitleByTitles(prev.books, after, order, mapping[j].0);
        if j < |mapping| - 1 {
          assert mapping[j] == init[j];
        }
      }
    }
  }

  /** On settled books the command changes nothing and counts no update. */
  lemma {:induction false} SettledRunIsQuiet(books: map<int, Book>, order: seq<int>, mapping: seq<(string, nat)>)
    requires forall i :: 0 <= i < |order| ==> order[i] in books
    requires Settled(books, order, mapping)
    ensures Run(books, order, mapping).books == books && Run(books, order, mapping).updated == 0
  {
    if mapping != [] {
      var init := mapping[..|mapping| - 1];
      assert Settled(books, order, init) by {
        forall j | 0 <= j < |init| ensures init[j] == mapping[j] { }
      }
      SettledRunIsQuiet(books, order, init);
    }
  }

  /** An immediate second run reports no update, changes nothing and lists the same missing titles. */
  lemma SecondRunChangesNothing(books: map<int, Book>, order: seq<int>, mapping: seq<(string, nat)>)
    requires forall i :: 0 <= i < |order| ==> order[i] in books
    requires DistinctTitles(mapping)
    ensures var first := Run(books, order, mapping);
            var second := Run(first.books, order, mapping);
            second.books == first.books && second.updated == 0 && second.missing == first.missing
  {
    var first := Run(books, order, mapping);
    RunSettles(books, order, mapping);
    SettledRunIsQuiet(first.books, order, mapping);
    RunMissing(books, order, mapping);
    RunMissing(first.books, order, mapping);
    MissingByTitles(books, first.books, order, mapping);
  }

  lemma {:induction false} MissingByTitles(a: map<int, Book>, b: map<int, Book>, order: seq<int>, mapping: seq<(string, nat)>)
    requires SameTitles(a, b) && forall i :: 0 <= i < |order| ==> order[i] in a
    ensures MissingTitles(a, order, mapping) == MissingTitles(b, order, mapping)
  {
    if mapping != [] {
      MissingByTitles(a, b, order, mapping[..|mapping| - 1]);
      FirstWithTitleByTitles(a, b, order, mapping[|mapping| - 1].0);
    }
  }

  function JoinComma(titles: seq<string>): string
  {
    if titles == [] then "" else if |titles| == 1 then titles[0] else titles[0] + ", " + JoinComma(titles[1..])
  }

  /** The lines the command writes: the update summary, then the warning when titles are missing. */
  function Report(updated: nat, missing: seq<string>): (lines: seq<string>)
    ensures |lines| >= 1
    ensures updated != 0 <==> lines[0] != "No page_count changes applied."
    ensures |lines| == 2 <==> missing != []
    ensures missing != [] ==> lines[1] == "Missing titles: " + JoinComma(missing)
  {
    [if updated != 0 then "Updated page_count for " + NatToString(updated) + " books." else "No page_count changes applied."]
    + (if missing != [] then ["Missing titles: " + JoinComma(missing)] else [])
  }

  /**
   * `Command.handle`: for each (title, pages) of the mapping, the first book with that
   * title gets the page count when it differs; titles with no book are collected.
   */
  method Handle(db: Database, mapping: seq<(string, nat)>, order: seq<int>)
    returns (missing: seq<string>, updated: nat, lines: seq<string>)
    requires QueryOrder(db.books, order)
    modifies db`books
    ensures db.books == Run(old(db.books), order, mapping).books
    ensures updated == Run(old(db.books), order, mapping).updated
    ensures missing == MissingTitles(old(db.books), order, mapping)
    ensures lines == Report(updated, missing)
    ensures forall id :: id in old(db.books) && (forall j :: 0 <= j < |mapping| ==> FirstWithTitle(old(db.books), order, mapping[j].0) != Some(id))
              ==> db.books[id] == old(db.books)[id]
    ensures DistinctTitles(mapping) ==> updated == |ChangedBooks(old(db.books), db.books)|
  {
    missing, updated := [], 0;
    ghost var original := db.books;
    var k := 0;
    while k < |mapping|
      invariant 0 <= k <= |mapping|
      invariant Run(original, order, mapping[..k]) == Progress(db.books, missing, updated)
    {
      assert mapping[..k + 1][..k] == mapping[..k];
      var (title, pages) := mapping[k];
      var book := FirstWithTitle(db.books, order, title);
      if book.None? {
        missing := missing + [title];
      } else if db.books[book.value].pageCount != pages {
        db.books := db.books[book.value := db.books[book.value].(pageCount := pages)];
        updated := updated + 1;
      }
      k := k + 1;
    }
    assert mapping[..k] == mapping;
    RunMissing(original, order, mapping);
    forall id | id in original && (forall j :: 0 <= j < |mapping| ==> FirstWithTitle(original, order, mapping[j].0) != Some(id)) {
      RunKeepsUnlisted(original, order, mapping, id);
    }
    if DistinctTitles(mapping) {
      RunCountsChanges(original, order, mapping);
    }
    lines := Report(updated, missing);
  }
}

=== FILE: store.dfy ===
/**
 * The book club's persistent state: one datatype per table row and a `Database`
 * object whose fields are the tables the ORM reads and writes.
 *
 * Time is one local timeline of integer seconds; a calendar date is a day number
 * (day 0 is 1970-01-01, a Thursday) and every day has 86400 seconds.
 */
module Store {
  import opened Wrappers

  const SECONDS_PER_DAY: int := 86400

  /**
   * Whole days, rounded towards minus infinity: the local calendar date of a timestamp
   * (`localtime(t).date()`), and `timedelta.days` of a difference of timestamps.
   */
  function DayOf(t: int): (d: int)
    ensures d * SECONDS_PER_DAY <= t < (d + 1) * SECONDS_PER_DAY
  {
    t / SECONDS_PER_DAY
  }

  /** Python's `date.weekday()`: Monday is 0, Saturday 5, Sunday 6. */
  function Weekday(day: int): (w: int)
    ensures 0 <= w < 7
  {
    (day + 3) % 7
  }


  /** A non-empty set of ids has an element, so that `:|` can pick one. */
  lemma NonEmptyIds(s: set<int>)
    requires s != {}
    ensures exists x :: x in s
  {
    if forall x :: x !in s {
      assert false;
    }
  }

  /** Python's `int(a / b)` for `b > 0`: the quotient truncated towards zero. */
  function TruncDiv(a: int, b: int): (q: int)
    requires b > 0
    ensures a >= 0 ==> q >= 0 && q * b <= a < (q + 1) * b
    ensures a < 0 ==> q <= 0 && (q - 1) * b < a <= q * b
  {
    if a >= 0 then DivisionBounds(a, b); a / b else DivisionBounds(-a, b); -((-a) / b)
  }

  /** The floor quotient of a natural number brackets it between two multiples of the divisor. */
  lemma DivisionBounds(n: nat, b: int)
    requires b > 0
    ensures n / b >= 0 && (n / b) * b <= n < (n / b + 1) * b && (n / b - 1) * b < n
  {
    var q, r := n / b, n % b;
    assert n == q * b + r && 0 <= r < b;
    assert (q + 1) * b == q * b + b;
    assert (q - 1) * b == q * b - b;
  }

  /** A subset of a finite set is no larger than the set. */
  lemma SubsetNoLarger(a: set<int>, b: set<int>)
    requires a <= b
    ensures |a| <= |b|
  {
    assert b == a + (b - a);
  }

  datatype Period = Period(id: int, isActive: bool, startDate: int, endDate: int)

  datatype Stage = Stage(id: int, period: int, stageNumber: int, order: int)

  datatype Book = Book(
    id: int,
    title: string,
    stage: int,
    readingScore: int,
    quizScore: int,
    readingDays: int,
    pageCount: nat,
    stockCount: nat)

  datatype Member = Member(
    id: int,
    user: Option<int>,
    group: int,
    currentStage: Option<int>,
    totalScore: int,
    isActive: bool)

  datatype Assignment = Assignment(
    id: int,
    member: int,
    book: int,
    assignedDate: int,
    dueDate: Option<int>,
    returnedDate: Option<int>,
    isCompleted: bool,
    readingScoreEarned: int,
    quizScoreEarned: int,
    lateDays: int,
    pagesRead: nat,
    readingScoreBase: int,
    quizScoreBase: int,
    notes: string)

  /** A weekly bucket; the table is keyed by (member id, day number of the week's Saturday). */
  datatype WeeklyScore = WeeklyScore(weekEnd: int, score: int)

  datatype NotificationKind = General | Private | Due

  datatype Notification = Notification(
    kind: NotificationKind,
    recipient: Option<int>,
    assignment: Option<int>,
    isRead: bool,
    createdAt: int)

  /** One login session of a user; `logout == None` while the session is open. */
  datatype Session = Session(user: int, login: int, logout: Option<int>, duration: nat)

  class Database {
    var periods: map<int, Period>
    var stages: map<int, Stage>
    var books: map<int, Book>
    var members: map<int, Member>
    var assignments: map<int, Assignment>
    /** WeeklyScore rows keyed by (member, week start day). */
    var weekly: map<(int, int), WeeklyScore>
    /** Notification rows in insertion order. */
    var notifications: seq<Notification>
    /** UserSessionLog rows in insertion order. */
    var sessions: seq<Session>
    /** UserDailyUsage rows: seconds keyed by (user, day). */
    var usage: map<(int, int), nat>

    constructor ()
      ensures periods == map[] && stages == map[] && books == map[] && members == map[]
      ensures assignments == map[] && weekly == map[] && usage == map[]
      ensures notifications == [] && sessions == []
    {
      periods, stages, books, members := map[], map[], map[], map[];
      assignments, weekly, usage := map[], map[], map[];
      notifications, sessions := [], [];
    }
  }
}

=== FILE: wrappers.dfy ===
/** Optional values, standing for Python's `None` and for rows a query did not find. */
module Wrappers {

  datatype Option<+T> = None | Some(value: T) {

    /** The wrapped value, or `default` for `None` (Python's `x or default` on a nullable field). */
    function GetOr(default: T): T
    {
      match this
      case Some(v) => v
      case None => default
    }
  }
}
